=== FILE: README.md ===
# Stateful logic of the `hooks` React library, in Dafny

This project models the deterministic state logic of eight React hooks and
proves properties of it:

- `useVirtualList`, the windowing engine of a virtual list;
- `useDynamicList`, a list kept in lockstep with stable numeric keys;
- `useSelections`, checkbox selection over a list of items;
- `useCounter`, a counter clamped to optional bounds;
- `useSet` and `useMap`, a `Set` and a `Map` held as state;
- `useResponsive`, breakpoint flags computed from the window width;
- `useCreation`, a value re-created only when its dependencies change.

React's state cells and refs become explicit immutable state records. Every
action becomes a pure function from the old state to the new one. What the
browser supplies is a parameter: the container's `scrollTop` and
`clientHeight`, the window width, and the value a factory returns.

Layout, one module per hook plus its lemmas:

| file | module | models |
|---|---|---|
| `wrappers.dfy` | `Wrappers` | `Option`, where `None` is JavaScript's `undefined` |
| `js_arrays.dfy` | `JsArrays` | how `splice`, `slice`, `filter`, `findIndex` and element access resolve indices |
| `ordered_sets.dfy` | `OrderedSets` | a JavaScript `Set` as a sequence without duplicates, in insertion order |
| `virtual_list.dfy`, `virtual_list_lemmas.dfy` | `VirtualList`, `VirtualListLemmas` | `useVirtualList` |
| `dynamic_list.dfy`, `dynamic_list_lemmas.dfy`, `sort_form.dfy` | `DynamicList`, `DynamicListLemmas`, `SortForm` | `useDynamicList` |
| `selections.dfy`, `selections_lemmas.dfy` | `Selections`, `SelectionsLemmas` | `useSelections` |
| `counter.dfy`, `counter_lemmas.dfy` | `Counter`, `CounterLemmas` | `useCounter` |
| `set_state.dfy`, `set_state_lemmas.dfy` | `SetState`, `SetStateLemmas` | `useSet` |
| `map_state.dfy`, `map_state_lemmas.dfy` | `MapState`, `MapStateLemmas` | `useMap` |
| `responsive.dfy`, `responsive_lemmas.dfy` | `Responsive`, `ResponsiveLemmas` | `useResponsive` |
| `creation.dfy`, `creation_lemmas.dfy` | `Creation`, `CreationLemmas` | `useCreation` |

Modelling choices that matter when reading the contracts:

- Numbers are integers. A uniform item height is a positive natural. Per-index
  heights are a function `nat -> nat`. `Math.ceil` and `Math.floor` are exact
  integer division (`CeilDiv`, `FloorDiv`).
- `splice(i, …)` and `slice(b, e)` read a negative position from the end and
  clamp to `[0, length]` (`JsArrays.RelPos`). The model keeps this because the
  window end can be negative with per-index heights, and `slice` then counts
  from the end.
- `useDynamicList` is stated on its item/key pairs (`DynamicList.Pairs`). Each
  edit is proved to do to the pairs what the source does to the items, so an
  item and its key move together.
- `sortForm` sorts with `Array.prototype.sort`, which is stable. So its order
  is the strict total order "smaller `getIndex` first, then smaller position".
  The model sorts by insertion. `SortForm.SortFormPositionsUnique` proves that
  any sequence of the truthy positions sorted that way is this one.
- Two consequences of the windowing code, each kept as written:
  - `calculateRange` clamps only `start` from below and `end` from above, so
    `start <= end` is not enforced. The per-index capacity is kept as
    computed, with no fallback: when the rest of the list never fills the
    container it is `0 - start`, and the window can then end before it
    starts (`VirtualListLemmas.PerIndexRecalcDrifts`).
  - `getOffset` counts one item more than the items scrolled past. So
    without overscan, `scrollTo(k)` leaves a window that starts at `k + 1`
    (`VirtualListLemmas.UniformScrollToWithoutOverscanSkipsTarget`). From
    overscan 1 on, item `k` is inside the window
    (`VirtualListLemmas.UniformScrollToCovers`). Both hold when the browser
    keeps `scrollTop` at `getDistanceTop(k)`, that is, when that distance is
    within the scrollable range.

## Model

| member | source | states |
|---|---|---|
| `VirtualList.Init` | packages/hooks/src/useVirtualList/index.ts:29-31 | the first window is `{0, 10}`, no container is attached, and overscan defaults to 5 |
| `VirtualList.FirstReaching` | packages/hooks/src/useVirtualList/index.ts:77-88 | the scan yields the first index whose running height sum reaches the threshold, or nothing when no index in range does |
| `VirtualList.CeilDiv` | packages/hooks/src/useVirtualList/index.ts:40 | `q = ceil(c / h)`, characterised by `(q - 1) * h < c <= q * h` |
| `VirtualList.FloorDiv` | packages/hooks/src/useVirtualList/index.ts:69 | `q = floor(x / h)`, characterised by `q * h <= x < (q + 1) * h`, negative `x` included |
| `VirtualList.Offset` | packages/hooks/src/useVirtualList/index.ts:67-90 | uniform height: `floor(scrollTop / h) + 1`; per-index heights: one past the first item whose prefix sum reaches `scrollTop`, or 1 when none does |
| `VirtualList.ViewCapacity` | packages/hooks/src/useVirtualList/index.ts:38-59 | uniform height: `ceil(clientHeight / h)`; per-index heights: `i - start` for the first `i` from `start` at which the items fill the container, else `0 - start` |
| `VirtualList.OffsetLoop` | packages/hooks/src/useVirtualList/index.ts:72-89 | the source's `for` loop with its `break` computes exactly `Offset` |
| `VirtualList.CapacityLoop` | packages/hooks/src/useVirtualList/index.ts:42-58 | the source's `for` loop with its `break` computes exactly `ViewCapacity`, including `0 - start` when the loop never breaks |
| `VirtualList.CalculateRange` | packages/hooks/src/useVirtualList/index.ts:96-116 | without a container nothing changes; otherwise only the window is replaced, by `start = max(0, offset - overscan)` and `end = min(length, offset + capacity + overscan)`, with `Offset` and `ViewCapacity` as characterised above, so the end never exceeds the list length |
| `VirtualList.DistanceTop` | packages/hooks/src/useVirtualList/index.ts:140-159 | with per-index heights the distance is the height of the items of `list.slice(0, index)` |
| `VirtualList.ScrollTo` | packages/hooks/src/useVirtualList/index.ts:162-169 | with a container, `scrollTop` becomes `getDistanceTop(index)`, `clientHeight` stays, and the result is `calculateRange` of the scrolled state; without one nothing changes |
| `VirtualList.Rendered` | packages/hooks/src/useVirtualList/index.ts:171-176 | every entry's data is the list item at the entry's index; the indices run from `start` in order; the count is the resolved slice length |
| `VirtualListLemmas.SumMonotone` | packages/hooks/src/useVirtualList/index.ts:130 | heights are non-negative, so a longer prefix is never lower |
| `VirtualListLemmas.DistanceTopEnds` | packages/hooks/src/useVirtualList/index.ts:126-159 | `getDistanceTop(0) == 0` and `getDistanceTop(length) == totalHeight`, in both height modes |
| `VirtualListLemmas.DistanceTopMonotone` | packages/hooks/src/useVirtualList/index.ts:140-159 | from index 0 on, the distance never decreases |
| `VirtualListLemmas.ModesAgreeOnLayout` | packages/hooks/src/useVirtualList/index.ts:126-159 | a constant height function gives the same total height and distances as the same uniform height |
| `VirtualListLemmas.FloorPlusOneIsCeil` | packages/hooks/src/useVirtualList/index.ts:38-70 | for positive `t`, `floor(t / h) + 1 == ceil(t / h)` exactly when `h` does not divide `t` |
| `VirtualListLemmas.OffsetOfConstantHeights` | packages/hooks/src/useVirtualList/index.ts:72-89 | with every height `h`, the per-index offset is `ceil(scrollTop / h)` |
| `VirtualListLemmas.OffsetModesDisagreeOnBoundaries` | packages/hooks/src/useVirtualList/index.ts:67-90 | the two modes give the same offset exactly when `scrollTop` is not on an item boundary |
| `VirtualListLemmas.UniformRecalcIdempotent` | packages/hooks/src/useVirtualList/index.ts:96-116 | with a uniform height, recomputing twice gives the window of recomputing once |
| `VirtualListLemmas.PerIndexRecalcDrifts` | packages/hooks/src/useVirtualList/index.ts:42-58 | with per-index heights a second recomputation can move the window, here from `[1, 1)` to `[1, 0)`, where start is past end |
| `VirtualListLemmas.UniformExampleWindow` | packages/hooks/src/useVirtualList/index.ts:104-114 | items 20 high in a container 100 high at the top, without overscan, give the window `[1, 6)` |
| `VirtualListLemmas.UniformWindowMonotoneInHeight` | packages/hooks/src/useVirtualList/index.ts:104-114 | with a uniform height a lower container keeps the start and never moves the end later |
| `VirtualListLemmas.UniformScrollToCovers` | packages/hooks/src/useVirtualList/index.ts:162-169 | with a uniform height and overscan at least 1, `scrollTo(k)` puts every valid `k` inside the window, when `getDistanceTop(k)` is within the scrollable range |
| `VirtualListLemmas.UniformScrollToWithoutOverscanSkipsTarget` | packages/hooks/src/useVirtualList/index.ts:162-169 | with overscan 0, and `getDistanceTop(k)` within the scrollable range, the window after `scrollTo(k)` starts at `k + 1`, and no rendered entry has index `k` |
| `VirtualListLemmas.EmptyListRendersNothing` | packages/hooks/src/useVirtualList/index.ts:109-131 | an empty list renders nothing and is 0 high; from a non-negative scroll position its uniform window ends at 0 |
| `VirtualListLemmas.OffsetFromTopIsPositive` | packages/hooks/src/useVirtualList/index.ts:68-70 | from a non-negative scroll position the uniform offset is at least 1 |
| `VirtualListLemmas.UniformRenderedIsWindow` | packages/hooks/src/useVirtualList/index.ts:171-176 | from a non-negative scroll position, after a uniform recomputation the window ends within the list, and the rendered entries are exactly items `start..end-1` (none when start passes end), each with its own index |
| `DynamicList.SetKeysInsertsRun` | packages/hooks/src/useDynamicList/index.ts:31-37 | `count` calls of `setKey` at consecutive positions from inside the key list insert the run `counter+1 .. counter+count` there |
| `DynamicList.FreshKey` | packages/hooks/src/useDynamicList/index.ts:33-36 | the key `setKey` hands out next is not among the keys of a valid state |
| `DynamicList.Init` | packages/hooks/src/useDynamicList/index.ts:46-51 | the initial keys are `0..n-1` with counter `n - 1`, `undefined` counting as `[]`, and the state is valid |
| `DynamicList.ResetList` | packages/hooks/src/useDynamicList/index.ts:58-72 | whatever the old state, the new list is numbered from 0 again with counter `n - 1` |
| `DynamicList.Insert` | packages/hooks/src/useDynamicList/index.ts:80-92 | the pairs gain `(item, counter + 1)` at `index`, that key is fresh, and validity is kept |
| `DynamicList.Merge` | packages/hooks/src/useDynamicList/index.ts:105-114 | corrected: the pairs gain the items zipped with fresh increasing keys, all at `index`, and validity is kept |
| `DynamicList.MergeAsWritten` | packages/hooks/src/useDynamicList/index.ts:105-114 | as written: both lengths and the counter grow by the number of items |
| `DynamicList.MergeAsWrittenFromNonNegativeIndex` | packages/hooks/src/useDynamicList/index.ts:108-111 | from an index of 0 or more the source's `merge` equals the corrected one |
| `DynamicList.Replace` | packages/hooks/src/useDynamicList/index.ts:121-127 | corrected: only the item at `index` changes, its key stays, and an index outside the list changes nothing |
| `DynamicList.ReplaceAsWritten` | packages/hooks/src/useDynamicList/index.ts:124 | as written: a negative index leaves the elements alone, and an index past the end grows the array to `index + 1` with the item last |
| `DynamicList.Remove` | packages/hooks/src/useDynamicList/index.ts:133-146 | the pair at `index` leaves (JavaScript `splice(index, 1)`), and validity is kept |
| `DynamicList.Move` | packages/hooks/src/useDynamicList/index.ts:153-173 | corrected: equal indices or an `oldIndex` outside the list change nothing; otherwise the pair leaves `oldIndex` and is spliced in at `newIndex`, keeping validity and the multiset of items |
| `DynamicList.MoveAsWritten` | packages/hooks/src/useDynamicList/index.ts:153-166 | as written: equal indices change nothing, and an `oldIndex` outside the list makes the list one longer |
| `DynamicList.Push` | packages/hooks/src/useDynamicList/index.ts:179-184 | the pair `(item, counter + 1)` goes at the end |
| `DynamicList.Pop` | packages/hooks/src/useDynamicList/index.ts:189-198 | the last pair leaves; on an empty list nothing does |
| `DynamicList.Unshift` | packages/hooks/src/useDynamicList/index.ts:201-206 | the pair `(item, counter + 1)` goes at the front |
| `DynamicList.Shift` | packages/hooks/src/useDynamicList/index.ts:219-227 | the first pair leaves; on an empty list nothing does |
| `DynamicList.GetKey` | packages/hooks/src/useDynamicList/index.ts:95 | a key exists exactly for indices of the key list, and it is the key stored at that index |
| `DynamicList.GetIndex` | packages/hooks/src/useDynamicList/index.ts:98 | -1 exactly for an absent key; otherwise the first position holding that key |
| `DynamicList.GetIndexOfGetKey` | packages/hooks/src/useDynamicList/index.ts:95-98 | `getIndex(getKey(i)) == i` for every index of a valid state |
| `DynamicListLemmas.RemoveUndoesInsert` | packages/hooks/src/useDynamicList/index.ts:80-146 | `remove` at the position `insert` used restores the items and keys |
| `DynamicListLemmas.PopUndoesPush` | packages/hooks/src/useDynamicList/index.ts:179-198 | `pop` after `push` restores the items and keys |
| `DynamicListLemmas.ShiftUndoesUnshift` | packages/hooks/src/useDynamicList/index.ts:201-227 | `shift` after `unshift` restores the items and keys |
| `DynamicListLemmas.MoveBack` | packages/hooks/src/useDynamicList/index.ts:153-173 | moving back from where `move` put the item restores the whole state |
| `DynamicListLemmas.InsertedKeyIsFound` | packages/hooks/src/useDynamicList/index.ts:80-98 | `getIndex` of the key `insert` handed out is the position the item went to |
| `DynamicListLemmas.MergeNegativeIndexRekeys` | packages/hooks/src/useDynamicList/index.ts:108-111 | as written, `merge(-1, [30, 40])` on `[10, 20]` gives keys `[3, 0, 2, 1]`, so item 10 loses key 0 to item 30 |
| `DynamicListLemmas.MergeNegativeIndexKeepsKeys` | packages/hooks/src/useDynamicList/index.ts:105-114 | the corrected `merge` on the same input gives keys `[0, 2, 3, 1]` |
| `DynamicListLemmas.MergeKeepsExistingKeys` | packages/hooks/src/useDynamicList/index.ts:105-114 | under the corrected `merge` every existing item keeps its key, at its shifted position |
| `DynamicListLemmas.ReplacePastEndUnpairs` | packages/hooks/src/useDynamicList/index.ts:124 | as written, `replace` at or past the end leaves the item count different from the key count, and strictly past the end it leaves an `undefined` hole at the old end |
| `DynamicListLemmas.ReplaceAsWrittenInRange` | packages/hooks/src/useDynamicList/index.ts:121-127 | inside the list, the source's `replace` equals the corrected one |
| `DynamicListLemmas.MoveFromOutsideInsertsUndefined` | packages/hooks/src/useDynamicList/index.ts:159-165 | as written, an `oldIndex` outside the list splices `undefined` into both the items and the keys |
| `DynamicListLemmas.MoveAsWrittenInRange` | packages/hooks/src/useDynamicList/index.ts:153-173 | from an index of the list, the source's `move` equals the corrected one |
| `SortForm.SortPositions` | packages/hooks/src/useDynamicList/index.ts:213-214 | the positions `0..n-1`, each once, sorted by `getIndex` with ties by position |
| `SortForm.Filter` | packages/hooks/src/useDynamicList/index.ts:215 | keeps only accepted elements |
| `SortForm.FilterSubMultiset` | packages/hooks/src/useDynamicList/index.ts:215 | the filter takes no element more often than it occurs |
| `SortForm.FilterKeeps` | packages/hooks/src/useDynamicList/index.ts:215 | every accepted element survives the filter |
| `SortForm.FilterSorted` | packages/hooks/src/useDynamicList/index.ts:215 | filtering keeps a sorted sequence sorted |
| `SortForm.SortedUnique` | packages/hooks/src/useDynamicList/index.ts:214 | two sequences sorted by the same strict total order with the same elements are equal, so every stable sort yields the same order |
| `SortForm.SortFormPositions` | packages/hooks/src/useDynamicList/index.ts:211-216 | the kept positions are exactly those of truthy entries, each once, ordered by `getIndex` |
| `SortForm.SortFormPositionsUnique` | packages/hooks/src/useDynamicList/index.ts:211-216 | any ordering of exactly the truthy positions sorted by `getIndex`, ties by position, equals the modelled one |
| `SortForm.SortFormOf` | packages/hooks/src/useDynamicList/index.ts:211-216 | the `i`-th returned entry is the entry of `result` at the `i`-th kept position, which is truthy; the kept positions are those of `SortFormPositions` |
| `OrderedSets.Add` | packages/hooks/src/useSelections/index.ts:24 | `set.add(x)`: `x` is a member; a present `x` changes nothing; otherwise `x` goes at the end |
| `OrderedSets.Delete` | packages/hooks/src/useSelections/index.ts:36 | `set.delete(x)`: all occurrences of `x` leave, nothing else does, and a duplicate-free sequence stays duplicate-free |
| `OrderedSets.FromSeq` | packages/hooks/src/useSelections/index.ts:16 | `new Set(a)`: no duplicates, and the members are exactly the elements of `a` |
| `OrderedSets.AddAllMembers` | packages/hooks/src/useSelections/index.ts:74-76 | after adding every `xs` element the members are those of the set and of `xs` |
| `OrderedSets.DeleteAll` | packages/hooks/src/useSelections/index.ts:82-84 | after deleting every `xs` element the members are exactly those of the set outside `xs` |
| `Selections.Init` | packages/hooks/src/useSelections/index.ts:9-11 | `selected` starts as `defaultSelected`, or `[]` without one |
| `Selections.SelectedSet` | packages/hooks/src/useSelections/index.ts:16 | `new Set(selected)` has no duplicates |
| `Selections.Select` | packages/hooks/src/useSelections/index.ts:22-31 | `x` becomes selected, `selected` has no duplicates, and the earlier selection keeps its order at the front |
| `Selections.UnSelect` | packages/hooks/src/useSelections/index.ts:34-39 | `x` is no longer selected and `selected` has no duplicates |
| `Selections.Toggle` | packages/hooks/src/useSelections/index.ts:42-49 | unselects a selected `x` and selects an unselected one |
| `Selections.SelectAll` | packages/hooks/src/useSelections/index.ts:72-78 | every item becomes selected, without duplicates |
| `Selections.UnSelectAll` | packages/hooks/src/useSelections/index.ts:81-86 | no item stays selected, without duplicates |
| `Selections.ToggleAll` | packages/hooks/src/useSelections/index.ts:103 | `unSelectAll` when `allSelected`, `selectAll` otherwise |
| `Selections.SetSelected` | packages/hooks/src/useSelections/index.ts:11 | the raw setter stores the given array as is, duplicates included |
| `SelectionsLemmas.IsSelectedIff` | packages/hooks/src/useSelections/index.ts:16-19 | `isSelected(x)` is exactly membership in `selected` |
| `SelectionsLemmas.SelectedIsSet` | packages/hooks/src/useSelections/index.ts:16 | a duplicate-free `selected` is its own `Set`, order included |
| `SelectionsLemmas.SelectEffect` | packages/hooks/src/useSelections/index.ts:22-31 | after `select(x)` exactly `x` and the earlier selections are selected |
| `SelectionsLemmas.UnSelectEffect` | packages/hooks/src/useSelections/index.ts:34-39 | after `unSelect(x)` exactly the earlier selections other than `x` are selected |
| `SelectionsLemmas.ToggleEffect` | packages/hooks/src/useSelections/index.ts:42-49 | `toggle(x)` flips `isSelected(x)` and leaves every other item as it was |
| `SelectionsLemmas.SelectAllEffect` | packages/hooks/src/useSelections/index.ts:72-78 | after `selectAll` exactly the items and the earlier selections are selected |
| `SelectionsLemmas.UnSelectAllEffect` | packages/hooks/src/useSelections/index.ts:81-86 | after `unSelectAll` exactly the earlier selections outside `items` are selected |
| `SelectionsLemmas.ExactlyOneClass` | packages/hooks/src/useSelections/index.ts:94-101 | exactly one of `noneSelected`, `allSelected` and `partiallySelected` holds |
| `SelectionsLemmas.EmptyItemsClass` | packages/hooks/src/useSelections/index.ts:94-101 | with no items, `noneSelected` holds and the other two do not |
| `SelectionsLemmas.AllSelectedIff` | packages/hooks/src/useSelections/index.ts:97 | `allSelected` means there is an item and every item is selected |
| `SelectionsLemmas.ToggleAllEffect` | packages/hooks/src/useSelections/index.ts:103 | with items, `toggleAll` leaves none selected when all were, and all selected otherwise |
| `Counter.InitialValue` | packages/hooks/src/useCounter/index.ts:35-45 | a given `max` caps the initial value and `min` is then ignored; otherwise a given `min` floors it; otherwise it is taken as is |
| `Counter.Clamp` | packages/hooks/src/useCounter/index.ts:57-62 | the result is at least a given `min`, within consistent bounds, equal to an in-range target, and otherwise one of the bounds |
| `Counter.Init` | packages/hooks/src/useCounter/index.ts:27-48 | the counter starts at `init`, the initial value defaulting to 0 |
| `Counter.SetValue` | packages/hooks/src/useCounter/index.ts:53-65 | the target is the value or the function of the current value; an in-range target is kept, and the result respects `min` and consistent bounds |
| `Counter.Inc` | packages/hooks/src/useCounter/index.ts:67-69 | the clamped `current + delta`, `delta` defaulting to 1, which is exact when in range |
| `Counter.Dec` | packages/hooks/src/useCounter/index.ts:70-72 | the clamped `current - delta`, `delta` defaulting to 1, which is exact when in range |
| `Counter.Set` | packages/hooks/src/useCounter/index.ts:73-75 | a value, or a function applied to the current value, then clamped |
| `Counter.Reset` | packages/hooks/src/useCounter/index.ts:76-78 | the clamped `init`, which is `init` itself when in range |
| `CounterLemmas.ClampIdempotent` | packages/hooks/src/useCounter/index.ts:57-62 | with consistent bounds, clamping a clamped value changes nothing |
| `CounterLemmas.ClampMonotone` | packages/hooks/src/useCounter/index.ts:57-62 | clamping preserves order |
| `CounterLemmas.CrossedBoundsYieldMin` | packages/hooks/src/useCounter/index.ts:57-62 | with `max < min`, every value clamps to `min` |
| `CounterLemmas.InitBelowMin` | packages/hooks/src/useCounter/index.ts:35-78 | the initial value -5 with bounds 0..10 starts the counter at -5, and `reset` then gives 0 |
| `CounterLemmas.ActionsStayInRange` | packages/hooks/src/useCounter/index.ts:53-78 | with consistent bounds every action leaves the counter within them |
| `CounterLemmas.DecUndoesInc` | packages/hooks/src/useCounter/index.ts:67-72 | within the bounds `dec(d)` undoes `inc(d)` |
| `CounterLemmas.ResetIdempotent` | packages/hooks/src/useCounter/index.ts:76-78 | with consistent bounds, `reset` twice is `reset` once |
| `SetState.InitialSet` | packages/hooks/src/useSet/index.ts:24-27 | empty without an initial value; otherwise exactly the distinct initial elements |
| `SetState.Init` | packages/hooks/src/useSet/index.ts:24-29 | the state starts as `initialSet` |
| `SetState.Add` | packages/hooks/src/useSet/index.ts:34 | the members are the old members and the key, without duplicates |
| `SetState.Remove` | packages/hooks/src/useSet/index.ts:35 | the members are the old members other than the key, without duplicates |
| `SetState.Reset` | packages/hooks/src/useSet/index.ts:36 | the state becomes `initialSet` again |
| `SetStateLemmas.AddEffect` | packages/hooks/src/useSet/index.ts:34-42 | after `add(k)`, `has(y)` holds exactly for `k` and the old members |
| `SetStateLemmas.AddOrder` | packages/hooks/src/useSet/index.ts:34 | adding a member changes nothing; adding a new key appends it |
| `SetStateLemmas.RemoveEffect` | packages/hooks/src/useSet/index.ts:35-42 | after `remove(k)`, `has(y)` holds exactly for the old members other than `k` |
| `SetStateLemmas.RemoveAbsent` | packages/hooks/src/useSet/index.ts:35 | removing an absent key changes nothing |
| `SetStateLemmas.ActionsKeepValid` | packages/hooks/src/useSet/index.ts:29-36 | every action keeps both sets free of duplicates |
| `SetStateLemmas.ResetRestores` | packages/hooks/src/useSet/index.ts:24-36 | `reset` after an action restores the initial state, which is empty without an initial value |
| `MapState.FromEntries` | packages/hooks/src/useMap/index.ts:31 | every entry's key is in `new Map(entries)` |
| `MapState.InitialMap` | packages/hooks/src/useMap/index.ts:30-33 | empty without an initial value; otherwise it has every initial key |
| `MapState.Init` | packages/hooks/src/useMap/index.ts:30-35 | the live map is the `initialMap` object itself |
| `MapState.Get` | packages/hooks/src/useMap/index.ts:62 | a value exactly for present keys, `undefined` for absent ones |
| `MapState.Set` | packages/hooks/src/useMap/index.ts:40-43 | as written: `get(k)` becomes `v`, other entries stay, and while the live map is `initialMap` that object changes too |
| `MapState.Remove` | packages/hooks/src/useMap/index.ts:49-52 | as written: `k` is gone, other entries stay, and while the live map is `initialMap` that object changes too |
| `MapState.SetFixed` | packages/hooks/src/useMap/index.ts:40-43 | corrected: `get(k)` becomes `v`, other entries stay, and `initialMap` is untouched |
| `MapState.RemoveFixed` | packages/hooks/src/useMap/index.ts:49-52 | corrected: `k` is gone, other entries stay, and `initialMap` is untouched |
| `MapState.SetAll` | packages/hooks/src/useMap/index.ts:45-47 | every given key is in the new map, and `initialMap` is untouched |
| `MapState.Reset` | packages/hooks/src/useMap/index.ts:55 | the `initialMap` object becomes the live map again |
| `MapStateLemmas.FromEntriesLastWins` | packages/hooks/src/useMap/index.ts:31 | the last entry for a key gives its value |
| `MapStateLemmas.FromEntriesKeys` | packages/hooks/src/useMap/index.ts:31 | the keys of `new Map(entries)` are exactly the entries' keys |
| `MapStateLemmas.SetAllContents` | packages/hooks/src/useMap/index.ts:45-47 | after `setAll` a key is present exactly when some entry has it, and its value is the last such entry's |
| `MapStateLemmas.ResetAfterFirstSetKeepsValue` | packages/hooks/src/useMap/index.ts:40-55 | as written, with `initialMap` held from creation (as for `useMap()` or an `initialValue` that keeps its identity), `set(k, v)` then `reset()` still gives `get(k) == v`, even when the map started empty |
| `MapStateLemmas.ResetAfterRemoveLosesEntry` | packages/hooks/src/useMap/index.ts:49-55 | as written, with `initialMap` held from creation, `remove(k)` right after `reset` then `reset` again loses the initial entry for `k` |
| `MapStateLemmas.LaterSetsLeaveInitial` | packages/hooks/src/useMap/index.ts:40-43 | as written, with `initialMap` held from creation, only the first `set` after creation or `reset` reaches `initialMap` |
| `MapStateLemmas.FixedResetRestores` | packages/hooks/src/useMap/index.ts:30-55 | corrected: after any actions `initialMap` is the one computed at creation, and `reset` restores it |
| `MapStateLemmas.RunFixedKeepsInitial` | packages/hooks/src/useMap/index.ts:37-58 | corrected: no sequence of actions changes `initialMap` |
| `Responsive.Calculate` | packages/hooks/src/useResponsive/index.ts:61-84 | afterwards every config key's flag is `width >= threshold`; `info` is replaced exactly when some flag differs, and then by exactly the config's keys; otherwise it is kept |
| `Responsive.CalculateLoop` | packages/hooks/src/useResponsive/index.ts:71-83 | the source's loop over `Object.keys(config)`, in any key order, computes exactly `Calculate` |
| `Responsive.Init` | packages/hooks/src/useResponsive/index.ts:42-59 | the first call creates `info` and computes it; later calls change nothing |
| `Responsive.Resize` | packages/hooks/src/useResponsive/index.ts:51-58 | without `info` there is no listener; otherwise the flags are recomputed and subscribers are notified exactly when `info` was replaced |
| `Responsive.ConfigResponsive` | packages/hooks/src/useResponsive/index.ts:87-91 | the config is replaced, and `info` is recomputed only if it exists |
| `Responsive.UseResponsive` | packages/hooks/src/useResponsive/index.ts:94-96 | the hook runs `init` and returns the current `info` |
| `ResponsiveLemmas.DiffersIffStale` | packages/hooks/src/useResponsive/index.ts:76-83 | some flag differs exactly when `info` does not match the width |
| `ResponsiveLemmas.CalculateIdempotent` | packages/hooks/src/useResponsive/index.ts:61-84 | a second `calculate` at the same width replaces nothing |
| `ResponsiveLemmas.InitOnce` | packages/hooks/src/useResponsive/index.ts:44 | `init` after `init` changes nothing, whatever the width |
| `ResponsiveLemmas.ResizeAtSameWidthIsSilent` | packages/hooks/src/useResponsive/index.ts:51-58 | a resize at the width already computed notifies nobody |
| `ResponsiveLemmas.DefaultFlagsMonotone` | packages/hooks/src/useResponsive/index.ts:33-39 | with the default breakpoints, a set flag implies every smaller breakpoint's flag is set |
| `ResponsiveLemmas.DefaultAt800` | packages/hooks/src/useResponsive/index.ts:33-48 | at width 800 the default flags are xs, sm and md set, lg and xl clear |
| `ResponsiveLemmas.ConfigKeepsOrDropsStaleKeys` | packages/hooks/src/useResponsive/index.ts:87-91 | a smaller config whose flags agree keeps old keys such as `xl`; one differing flag replaces `info` by the new keys only |
| `ResponsiveLemmas.ConfigBeforeInit` | packages/hooks/src/useResponsive/index.ts:87-95 | a config set before the first `useResponsive` is the one `init` computes with |
| `Creation.DepsAreSameLoop` | packages/hooks/src/useCreation/index.ts:26-32 | true for the same array; otherwise false exactly when some index of `oldDeps` holds a different value in `deps` |
| `Creation.Fresh` | packages/hooks/src/useCreation/index.ts:10-14 | the ref starts with the first deps, no object and `initialized` false |
| `Creation.Render` | packages/hooks/src/useCreation/index.ts:16-22 | `factory` is called exactly when uninitialised or deps changed; a call stores the deps and the new object; otherwise the ref is unchanged; the stored object is returned |
| `CreationLemmas.FirstRenderCreates` | packages/hooks/src/useCreation/index.ts:16-20 | the first render calls `factory`, keeps its value and marks the ref initialised |
| `CreationLemmas.SameDepsKeepValue` | packages/hooks/src/useCreation/index.ts:16-22 | with unchanged deps, any number of renders return the stored object without calling `factory` |
| `CreationLemmas.EqualDepsAreSame` | packages/hooks/src/useCreation/index.ts:27-31 | the same array, or an equal one, counts as unchanged |
| `CreationLemmas.AppendedDepsIgnored` | packages/hooks/src/useCreation/index.ts:28-31 | entries appended to `deps` are never compared |
| `CreationLemmas.DroppedDeps` | packages/hooks/src/useCreation/index.ts:28-31 | dropping a defined trailing entry is a change; dropping an `undefined` one is not |
| `CreationLemmas.ChangedDepsRecreate` | packages/hooks/src/useCreation/index.ts:16-20 | a different value at any compared index re-creates the object and stores the new deps |

## Left out

- React itself is not modelled: when `useState`, `useMemo`, `useEffect` and `useCallback` run, how updater functions are queued or called twice, and re-renders. Each hook is its state plus the functions over it.
- The DOM is not modelled: `useSize`, the container ref, `preventDefault`, and `containerProps`/`wrapperProps`. `scrollTop`, `clientHeight` and the window width are inputs; after `scrollTo` the assigned `scrollTop` is taken as read back unchanged (see `VirtualList.ScrollTo` below). The spacer height `getDistanceTop(start)` is `DistanceTop`.
- `VirtualList.ScrollTo`: the `scrollTop` it assigns is read back exactly as assigned. A browser clamps it to the scrollable range (`scrollHeight - clientHeight`), which is not modelled, so near the end of the list the browser's recomputed window can differ from the one stated.
- Floating point is not modelled. Heights and positions are integers. A missing or zero `itemHeight`, with its `console.warn`, is excluded by the type of a uniform height. In JavaScript it divides by zero.
- The `totalHeight` memo is recomputed only when the list length changes. With per-index heights it can go stale; the model always recomputes it.
- `VirtualList.TotalHeight` has no contract of its own. Its meaning is stated by `VirtualListLemmas.DistanceTopEnds` and `VirtualListLemmas.ModesAgreeOnLayout`.
- `console.error` and the `try/catch` blocks around key-list updates are not modelled. None of the modelled operations throws.
- `DynamicList.MergeAsWritten`'s contract gives only lengths and the counter. Its keys are characterised for indices of 0 or more (`MergeAsWrittenFromNonNegativeIndex`) and by one negative-index example (`MergeNegativeIndexRekeys`).
- `DynamicList.ReplaceAsWritten` and `DynamicList.MoveAsWritten` leave the valid states: the results have holes or more items than keys. Later operations are modelled only on valid states.
- JavaScript truthiness (`!!item`) is not modelled: `sortForm`'s filter takes it as a parameter.
- Equality of items, keys, set members and dependencies is Dafny equality. It stands for JavaScript's `===` and SameValueZero, so `NaN` and object identity inside values are not modelled.
- `useSelections` builds `selectedSet` once per render and mutates it in place. Several actions within one render would therefore compound on the same object. The model rebuilds the set from `selected` for every action, as separate renders do.
- `MapState.Reset`: `initialMap` is taken as built once, at creation. The source's memo does this for `useMap()` and for an `initialValue` that keeps its identity. An `initialValue` passed as a new object on a later render rebuilds `initialMap`, and `reset` in that render then restores the fresh map. This is not modelled, so the as-written `MapStateLemmas` about `reset` hold only for a held `initialMap`.
- The iteration order of a `Map` is not modelled: the map state is a Dafny `map`. A `Set`'s order is modelled.
- The subscriber set of `useResponsive` and the `setState` it triggers are not modelled. `Resize` returns whether subscribers would be notified.
- `for … in` over a deps array skips holes. The model has no holes: a deps entry is a value or `undefined`. Deps arrays hold one value type.
- `DynamicList.SetKey` and `SetKeys` have no row: their meaning is `SetKeysInsertsRun`. The same holds for the index helpers in `JsArrays` and the pairing lemmas (`ZipInsertAt` and the like), which only transport array edits onto pairs.

## Findings

| source | as written | input that shows it | evidently intended | confidence | as-written member | corrected member |
|---|---|---|---|---|---|---|
| packages/hooks/src/useDynamicList/index.ts:108-111 | `setKey(index + i)` splices each fresh key at its own relative position, so with a negative `index` the keys land away from where `splice(index, 0, ...obj)` puts the items | initial list `[10, 20]` (keys `[0, 1]`), `merge(-1, [30, 40])`: list `[10, 30, 40, 20]`, keys `[3, 0, 2, 1]`, so item 10 loses key 0 to item 30 | the new keys go in as one run where the items go, and existing items keep their keys: `[0, 2, 3, 1]` | not executed; high | `DynamicListLemmas.MergeNegativeIndexRekeys` | `DynamicListLemmas.MergeKeepsExistingKeys` |
| packages/hooks/src/useDynamicList/index.ts:124 | `temp[index] = obj` past the end grows the list with holes, and no key is added | a valid list `[a]` with keys `[0]`, `replace(3, x)`: four items `[a, undefined, undefined, x]` against one key | replacing only an existing item, as the operation's name says | not executed; medium | `DynamicListLemmas.ReplacePastEndUnpairs` | `DynamicList.Replace` |
| packages/hooks/src/useDynamicList/index.ts:159-165 | with `oldIndex` outside the list, `filter` removes nothing and `splice` inserts `newList[oldIndex]`, which is `undefined`, into the items and the keys | list `[a, b]`, `move(5, 0)`: list `[undefined, a, b]`, keys `[undefined, 0, 1]` | a move from a position that does not exist changes nothing | not executed; medium | `DynamicListLemmas.MoveFromOutsideInsertsUndefined` | `DynamicList.Move` |
| packages/hooks/src/useMap/index.ts:41-55 | `set` and `remove` mutate the live map before copying it, and until the first such action the live map is the `initialMap` object, so `reset` reinstates a mutated map whenever `initialMap` is the one built at creation: for `useMap()`, or an `initialValue` that keeps its identity | `useMap()`, `set('a', 1)`, `reset()`: `get('a')` is still 1 | `reset` restores the map the hook started with | not executed; high | `MapStateLemmas.ResetAfterFirstSetKeepsValue` | `MapStateLemmas.FixedResetRestores` |

=== FILE: counter.dfy ===
/** `useCounter(initialValue, { min, max })`: a number kept between optional
    bounds. The initial value is clamped once, when the hook is created, and
    asymmetrically: a given `max` wins and `min` is then not consulted. Every
    later value goes through `setValue`, which clamps to `max` and then to
    `min`. */
module Counter {
  import opened Wrappers

  datatype Options = Options(min: Option<int>, max: Option<int>)

  /** `init` is fixed at creation; `current` is the counter's value. */
  datatype Counter = Counter(init: int, current: int, options: Options)

  /** The argument of `set`: a value, or a function of the current value. */
  datatype Arg = Value(v: int) | Update(f: int -> int)

  /** Within both bounds that are given. */
  predicate InRange(x: int, o: Options) {
    (o.min.None? || o.min.value <= x) && (o.max.None? || x <= o.max.value)
  }

  /** The bounds admit some value. */
  predicate Consistent(o: Options) {
    o.min.None? || o.max.None? || o.min.value <= o.max.value
  }

  function Min(a: int, b: int): int { if a <= b then a else b }
  function Max(a: int, b: int): int { if a >= b then a else b }

  /** The `init` the hook computes once from `initialValue` (default 0). */
  function InitialValue(initialValue: int, o: Options): (r: int)
    ensures o.max.Some? ==> r <= o.max.value && (r == initialValue || r == o.max.value)
    ensures o.max.Some? && initialValue <= o.max.value ==> r == initialValue
    ensures o.max.None? && o.min.Some? ==> o.min.value <= r && (r == initialValue || r == o.min.value)
    ensures o.max.None? && o.min.Some? && o.min.value <= initialValue ==> r == initialValue
    ensures o.max.None? && o.min.None? ==> r == initialValue
  {
    if o.max.Some? then Min(o.max.value, initialValue)
    else if o.min.Some? then Max(o.min.value, initialValue)
    else initialValue
  }

  /** The clamp inside `setValue`: to `max` first, then to `min`. */
  function Clamp(target: int, o: Options): (r: int)
    ensures o.min.Some? ==> o.min.value <= r
    ensures Consistent(o) ==> InRange(r, o)
    ensures InRange(target, o) ==> r == target
    ensures r == target || (o.max.Some? && r == o.max.value) || (o.min.Some? && r == o.min.value)
  {
    var t := if o.max.Some? then Min(o.max.value, target) else target;
    if o.min.Some? then Max(o.min.value, t) else t
  }

  /** The counter right after `useCounter(initialValue, options)`. */
  function Init(initialValue: Option<int>, o: Options): (c: Counter)
    ensures c.options == o && c.current == c.init
    ensures c.init == InitialValue(initialValue.GetOr(0), o)
  {
    var v := InitialValue(initialValue.GetOr(0), o);
    Counter(v, v, o)
  }

  /** `setValue(value)`: the target is the value, or the function applied to
      the current value, and is then clamped. */
  function SetValue(c: Counter, a: Arg): (r: Counter)
    ensures r.init == c.init && r.options == c.options
    ensures var target := if a.Value? then a.v else a.f(c.current);
      (InRange(target, c.options) ==> r.current == target) &&
      (c.options.min.Some? ==> c.options.min.value <= r.current) &&
      (Consistent(c.options) ==> InRange(r.current, c.options))
  {
    var target := if a.Value? then a.v else a.f(c.current);
    c.(current := Clamp(target, c.options))
  }

  /** `inc(delta)`, `delta` defaulting to 1. */
  function Inc(c: Counter, delta: Option<int>): (r: Counter)
    ensures InRange(c.current + delta.GetOr(1), c.options) ==> r.current == c.current + delta.GetOr(1)
    ensures r.init == c.init && r.options == c.options
    ensures r.current == Clamp(c.current + delta.GetOr(1), c.options)
  {
    var d := delta.GetOr(1);
    SetValue(c, Update(x => x + d))
  }

  /** `dec(delta)`, `delta` defaulting to 1. */
  function Dec(c: Counter, delta: Option<int>): (r: Counter)
    ensures InRange(c.current - delta.GetOr(1), c.options) ==> r.current == c.current - delta.GetOr(1)
    ensures r.init == c.init && r.options == c.options
    ensures r.current == Clamp(c.current - delta.GetOr(1), c.options)
  {
    var d := delta.GetOr(1);
    SetValue(c, Update(x => x - d))
  }

  /** `set(value)`. */
  function Set(c: Counter, a: Arg): (r: Counter)
    ensures r.init == c.init && r.options == c.options
    ensures a.Value? ==> r.current == Clamp(a.v, c.options)
    ensures a.Update? ==> r.current == Clamp(a.f(c.current), c.options)
  {
    SetValue(c, a)
  }

  /** `reset()`: `setValue(init)`, so `init` is clamped again. */
  function Reset(c: Counter): (r: Counter)
    ensures InRange(c.init, c.options) ==> r.current == c.init
    ensures r.init == c.init && r.options == c.options
    ensures r.current == Clamp(c.init, c.options)
  {
    SetValue(c, Value(c.init))
  }
}

=== FILE: counter_lemmas.dfy ===
/** Properties of the bounded counter. */
module CounterLemmas {
  import opened Wrappers
  import opened Counter

  /** The clamp is idempotent: a clamped value is clamped to itself. */
  lemma ClampIdempotent(x: int, o: Options)
    requires Consistent(o)
    ensures Clamp(Clamp(x, o), o) == Clamp(x, o)
  {
  }

  /** The clamp is monotone. */
  lemma ClampMonotone(x: int, y: int, o: Options)
    requires x <= y
    ensures Clamp(x, o) <= Clamp(y, o)
  {
  }

  /** With crossed bounds the clamp always yields `min`. */
  lemma CrossedBoundsYieldMin(x: int, lo: int, hi: int)
    requires hi < lo
    ensures Clamp(x, Options(Some(lo), Some(hi))) == lo
  {
  }

  /** The initial value ignores `min` when `max` is given: `initialValue`
      -5 with bounds 0..10 starts the counter at -5, and `reset` then moves
      it to 0. */
  lemma InitBelowMin()
    ensures var c := Init(Some(-5), Options(Some(0), Some(10)));
      c.current == -5 && Reset(c).current == 0
  {
  }

  /** After any action a counter with consistent bounds is within them. */
  lemma ActionsStayInRange(c: Counter, a: Arg, delta: Option<int>)
    requires Consistent(c.options)
    ensures InRange(SetValue(c, a).current, c.options)
    ensures InRange(Inc(c, delta).current, c.options)
    ensures InRange(Dec(c, delta).current, c.options)
    ensures InRange(Reset(c).current, c.options)
  {
  }

  /** Within the bounds `dec(d)` undoes `inc(d)`. */
  lemma DecUndoesInc(c: Counter, delta: Option<int>)
    requires InRange(c.current, c.options)
    requires InRange(c.current + delta.GetOr(1), c.options)
    ensures Dec(Inc(c, delta), delta).current == c.current
  {
  }

  /** `reset` twice is `reset` once. */
  lemma ResetIdempotent(c: Counter)
    requires Consistent(c.options)
    ensures Reset(Reset(c)) == Reset(c)
  {
    ClampIdempotent(c.init, c.options);
  }
}

=== FILE: creation.dfy ===
/** `useCreation(factory, deps)`: a value created by `factory` on the first
    render and re-created only when `deps` changed.

    A deps array is an object: `ref` stands for its identity and `values`
    for its elements, `None` being `undefined`. Element comparison is Dafny
    equality, standing for `!==`. The value `factory()` returns on a render
    is a parameter. */
module Creation {
  import opened Wrappers

  datatype Deps<T> = Deps(ref: nat, values: seq<Option<T>>)

  /** The ref object the hook keeps between renders. */
  datatype Store<T> = Store(deps: Deps<T>, obj: Option<T>, initialized: bool)

  /** `deps[i]`: `undefined` past the end. */
  function Lookup<T>(values: seq<Option<T>>, i: int): (r: Option<T>)
    ensures 0 <= i < |values| ==> r == values[i]
    ensures !(0 <= i < |values|) ==> r.None?
  {
    if 0 <= i < |values| then values[i] else None
  }

  /** Every index of `oldDeps` holds the same value in `deps`. */
  predicate SameAtOldIndices<T(==)>(oldDeps: Deps<T>, deps: Deps<T>) {
    forall i :: 0 <= i < |oldDeps.values| ==> oldDeps.values[i] == Lookup(deps.values, i)
  }

  /** Some index of `oldDeps` holds a value that differs in `deps`. */
  predicate DiffersSomewhere<T(==)>(oldDeps: Deps<T>, deps: Deps<T>) {
    exists i :: 0 <= i < |oldDeps.values| && oldDeps.values[i] != Lookup(deps.values, i)
  }

  /** What `depsAreSame` decides: the same array, or no index of `oldDeps`
      whose value differs in `deps`. */
  predicate DepsAreSame<T(==)>(oldDeps: Deps<T>, deps: Deps<T>) {
    oldDeps.ref == deps.ref || SameAtOldIndices(oldDeps, deps)
  }

  /** `depsAreSame(oldDeps, deps)` as the source runs it: the identity test,
      then a `for ... in` over the indices of `oldDeps` that returns `false`
      at the first difference. */
  method DepsAreSameLoop<T(==)>(oldDeps: Deps<T>, deps: Deps<T>) returns (same: bool)
    ensures same <==> DepsAreSame(oldDeps, deps)
    ensures !same <==> oldDeps.ref != deps.ref && DiffersSomewhere(oldDeps, deps)
  {
    if oldDeps.ref == deps.ref {
      return true;
    }
    var i := 0;
    while i < |oldDeps.values|
      invariant 0 <= i <= |oldDeps.values|
      invariant forall j :: 0 <= j < i ==> oldDeps.values[j] == Lookup(deps.values, j)
    {
      if oldDeps.values[i] != Lookup(deps.values, i) {
        return false;
      }
      i := i + 1;
    }
    return true;
  }

  /** The store `useRef` creates on the first render. */
  function Fresh<T>(deps: Deps<T>): (s: Store<T>)
    ensures s.deps == deps && s.obj.None? && !s.initialized
  {
    Store(deps, None, false)
  }

  /** One render: the new store, the value returned, and whether `factory`
      was called. */
  function Render<T(==)>(s: Store<T>, deps: Deps<T>, made: T): (r: (Store<T>, Option<T>, bool))
    ensures r.1 == r.0.obj
    ensures r.2 <==> !s.initialized || !DepsAreSame(s.deps, deps)
    ensures r.2 ==> r.0 == Store(deps, Some(made), true)
    ensures !r.2 ==> r.0 == s
  {
    if !s.initialized || !DepsAreSame(s.deps, deps) then
      var s' := Store(deps, Some(made), true);
      (s', s'.obj, true)
    else (s, s.obj, false)
  }
}

=== FILE: creation_lemmas.dfy ===
/** When `useCreation` calls its factory. */
module CreationLemmas {
  import opened Wrappers
  import opened Creation

  /** The first render always calls `factory` and keeps its value. */
  lemma FirstRenderCreates<T>(deps: Deps<T>, made: T)
    ensures var r := Render(Fresh(deps), deps, made);
      r.2 && r.0.initialized && r.1 == Some(made) && r.0.deps == deps
  {
  }

  /** Once created, unchanged deps return the stored value without a call,
      as often as the component renders. */
  lemma SameDepsKeepValue<T>(s: Store<T>, deps: Deps<T>, made1: T, made2: T)
    requires s.initialized && DepsAreSame(s.deps, deps)
    ensures Render(s, deps, made1) == (s, s.obj, false)
    ensures Render(Render(s, deps, made1).0, deps, made2) == (s, s.obj, false)
  {
  }

  /** The same array is the same deps, and so are equal elements. */
  lemma EqualDepsAreSame<T>(oldDeps: Deps<T>, deps: Deps<T>)
    requires oldDeps.ref == deps.ref || oldDeps.values == deps.values
    ensures DepsAreSame(oldDeps, deps)
  {
  }

  /** Only `oldDeps`' indices are compared: entries appended to `deps` are
      ignored, and an empty `oldDeps` (`[]`) never triggers a re-creation. */
  lemma AppendedDepsIgnored<T>(oldDeps: Deps<T>, deps: Deps<T>)
    requires |oldDeps.values| <= |deps.values| && deps.values[..|oldDeps.values|] == oldDeps.values
    ensures DepsAreSame(oldDeps, deps)
  {
    forall i | 0 <= i < |oldDeps.values| ensures oldDeps.values[i] == Lookup(deps.values, i) {
      assert deps.values[..|oldDeps.values|][i] == deps.values[i];
    }
  }

  /** Dropping a defined trailing dependency is a change; dropping an
      `undefined` one is not. */
  lemma DroppedDeps<T>(x: T)
    ensures !DepsAreSame(Deps(0, [Some(x)]), Deps(1, []))
    ensures DepsAreSame<T>(Deps(0, [None]), Deps(1, []))
  {
    var old1: Deps<T> := Deps(0, [Some(x)]);
    var new1: Deps<T> := Deps(1, []);
    assert old1.values[0] != Lookup(new1.values, 0);
  }

  /** A change at any compared index re-creates the value and stores the
      new deps. */
  lemma ChangedDepsRecreate<T>(s: Store<T>, deps: Deps<T>, made: T, i: int)
    requires s.deps.ref != deps.ref
    requires 0 <= i < |s.deps.values| && s.deps.values[i] != Lookup(deps.values, i)
    ensures var r := Render(s, deps, made); r.2 && r.0.deps == deps && r.1 == Some(made)
  {
  }
}

=== FILE: dynamic_list.dfy ===
/** `useDynamicList`: a list kept in lockstep with a list of numeric keys, one
    per item, so that items keep a stable identity while the list is edited.
    Fresh keys come from a counter that starts at -1 and is incremented before
    each use.

    The React state cell and the two refs become one immutable state record;
    every operation is a function from the old state to the new one. */
module DynamicList {
  import opened Wrappers
  import opened JsArrays
  import opened OrderedSets

  datatype DynamicList<T> = DynamicList(list: seq<T>, keys: seq<int>, counter: int)

  /** The invariant every reachable state keeps: one key per item, no key
      twice, and every key at most the counter, so the next key is fresh. */
  predicate Valid<T>(d: DynamicList<T>) {
    && |d.list| == |d.keys|
    && NoDup(d.keys)
    && d.counter >= -1
    && forall k :: k in d.keys ==> 0 <= k <= d.counter
  }

  /** Two sequences of one length, paired up position by position. */
  function Zip<A, B>(a: seq<A>, b: seq<B>): (r: seq<(A, B)>)
    requires |a| == |b|
    ensures |r| == |a|
    ensures forall i :: 0 <= i < |r| ==> r[i] == (a[i], b[i])
  {
    seq(|a|, i requires 0 <= i < |a| => (a[i], b[i]))
  }

  /** Each item paired with its key. */
  function Pairs<T>(d: DynamicList<T>): (r: seq<(T, int)>)
    requires |d.list| == |d.keys|
  {
    Zip(d.list, d.keys)
  }

  // The array edits commute with pairing: doing an edit on the items and the
  // same edit on the keys is doing it on the pairs.

  lemma ZipInsertAt<A, B>(a: seq<A>, b: seq<B>, i: int, x: A, y: B)
    requires |a| == |b|
    ensures Zip(InsertAt(a, i, x), InsertAt(b, i, y)) == InsertAt(Zip(a, b), i, (x, y))
  {
  }

  lemma ZipInsertAllAt<A, B>(a: seq<A>, b: seq<B>, i: int, xs: seq<A>, ys: seq<B>)
    requires |a| == |b| && |xs| == |ys|
    ensures Zip(InsertAllAt(a, i, xs), InsertAllAt(b, i, ys)) == InsertAllAt(Zip(a, b), i, Zip(xs, ys))
  {
    var l, r := Zip(InsertAllAt(a, i, xs), InsertAllAt(b, i, ys)), InsertAllAt(Zip(a, b), i, Zip(xs, ys));
    assert |l| == |r|;
    forall j | 0 <= j < |l|
      ensures l[j] == r[j]
    {
      InsertAllAtIndex(a, i, xs, j);
      InsertAllAtIndex(b, i, ys, j);
      InsertAllAtIndex(Zip(a, b), i, Zip(xs, ys), j);
    }
  }

  lemma ZipRemoveAt<A, B>(a: seq<A>, b: seq<B>, i: int)
    requires |a| == |b|
    ensures Zip(RemoveAt(a, i), RemoveAt(b, i)) == RemoveAt(Zip(a, b), i)
  {
  }

  lemma ZipWithoutIndex<A, B>(a: seq<A>, b: seq<B>, i: int)
    requires |a| == |b|
    ensures Zip(WithoutIndex(a, i), WithoutIndex(b, i)) == WithoutIndex(Zip(a, b), i)
  {
  }

  lemma ZipSlice<A, B>(a: seq<A>, b: seq<B>, lo: int, hi: int)
    requires |a| == |b|
    ensures Zip(Slice(a, lo, hi), Slice(b, lo, hi)) == Slice(Zip(a, b), lo, hi)
  {
  }

  /** The keys of a valid state lie in `[0, hi]` for any `hi` past the
      counter, and so do those of any sequence made of them and of values
      in that range. */
  lemma KeysWithin(s: seq<int>, r: seq<int>, extra: seq<int>, hi: int)
    requires forall k :: k in s ==> 0 <= k <= hi
    requires forall k :: k in extra ==> 0 <= k <= hi
    requires multiset(r) <= multiset(s) + multiset(extra)
    ensures forall k :: k in r ==> 0 <= k <= hi
  {
    forall k | k in r
      ensures 0 <= k <= hi
    {
      assert k in multiset(r);
      if k in multiset(s) {
        assert k in s;
      } else {
        assert k in multiset(extra);
        assert k in extra;
      }
    }
  }

  /** A run of counter values past every existing key, spliced in anywhere,
      keeps the keys free of duplicates. */
  lemma NoDupRunInsert(keys: seq<int>, counter: int, p: nat, m: nat)
    requires NoDup(keys) && p <= |keys|
    requires forall k :: k in keys ==> k <= counter
    ensures NoDup(keys[..p] + Range(counter + 1, m) + keys[p..])
  {
    var run := Range(counter + 1, m);
    var r := keys[..p] + run + keys[p..];
    assert keys == keys[..p] + keys[p..];
    assert multiset(r) == multiset(keys) + multiset(run);
    assert NoDup(run);
    NoDupCounts(keys);
    NoDupCounts(run);
    forall x
      ensures multiset(r)[x] <= 1
    {
      if x in run {
        assert x !in keys;
      }
    }
    NoDupCounts(r);
  }

  /** `setKey(index)`: increment the counter and splice its value into the
      key list at `index`. */
  function SetKey(keys: seq<int>, counter: int, index: int): (r: (seq<int>, int))
    ensures r.1 == counter + 1
    ensures r.0 == InsertAt(keys, index, counter + 1)
  {
    (InsertAt(keys, index, counter + 1), counter + 1)
  }

  /** `forEach((_, i) => setKey(from + i))` over `count` items. */
  function SetKeys(keys: seq<int>, counter: int, from: int, count: nat): (seq<int>, int)
    decreases count
  {
    if count == 0 then (keys, counter)
    else SetKeys(SetKey(keys, counter, from).0, counter + 1, from + 1, count - 1)
  }

  /** From a position inside the key list, `SetKeys` inserts the next
      `count` counter values there, in increasing order. */
  lemma {:induction false} SetKeysInsertsRun(keys: seq<int>, counter: int, from: nat, count: nat)
    requires from <= |keys|
    ensures SetKeys(keys, counter, from, count) == (keys[..from] + Range(counter + 1, count) + keys[from..], counter + count)
    decreases count
  {
    if count == 0 {
      assert keys[..from] + Range(counter + 1, count) + keys[from..] == keys;
    } else {
      var keys' := InsertAt(keys, from, counter + 1);
      var goal := (keys[..from] + Range(counter + 1, count) + keys[from..], counter + count);
      assert SetKeys(keys, counter, from, count) == SetKeys(keys', counter + 1, from + 1, count - 1) by {
        assert SetKey(keys, counter, from).0 == keys';
      }
      var ih := keys'[..from + 1] + Range(counter + 2, count - 1) + keys'[from + 1..];
      assert SetKeys(keys', counter + 1, from + 1, count - 1) == (ih, counter + count) by {
        SetKeysInsertsRun(keys', counter + 1, from + 1, count - 1);
      }
      assert ih == goal.0 by {
        RunGrows(keys, counter, from, count);
      }
    }
  }

  /** One step of `SetKeysInsertsRun`: a key in front of a run extends it. */
  lemma RunGrows(keys: seq<int>, counter: int, from: nat, count: nat)
    requires from <= |keys| && count > 0
    ensures
      var keys' := InsertAt(keys, from, counter + 1);
      keys'[..from + 1] + Range(counter + 2, count - 1) + keys'[from + 1..]
        == keys[..from] + Range(counter + 1, count) + keys[from..]
  {
    var keys' := InsertAt(keys, from, counter + 1);
    assert keys'[..from + 1] == keys[..from] + [counter + 1];
    assert keys'[from + 1..] == keys[from..];
    assert [counter + 1] + Range(counter + 2, count - 1) == Range(counter + 1, count);
  }

  /** A fresh counter value is not among the keys of a valid state. */
  lemma FreshKey<T>(d: DynamicList<T>)
    requires Valid(d)
    ensures d.counter + 1 !in d.keys
  {
  }

  // ---------------------------------------------------------------------
  // Initialisation

  /** The initial state for `initialValue` (`undefined` counts as `[]`):
      keys `0..n-1` and counter `n - 1`. */
  function Init<T>(initialValue: Option<seq<T>>): (d: DynamicList<T>)
    ensures Valid(d)
    ensures d.list == initialValue.GetOr([])
    ensures d.keys == Range(0, |d.list|) && d.counter == |d.list| - 1
  {
    var xs := initialValue.GetOr([]);
    var (keys, counter) := SetKeys([], -1, 0, |xs|);
    SetKeysInsertsRun([], -1, 0, |xs|);
    assert NoDup(keys);
    DynamicList(xs, keys, counter)
  }

  /** `resetList(newList)`: forget every key and the counter, and number the
      new list from 0 again, whatever the old state was. */
  function ResetList<T>(d: DynamicList<T>, newList: Option<seq<T>>): (r: DynamicList<T>)
    ensures Valid(r)
    ensures r.list == newList.GetOr([])
    ensures r.keys == Range(0, |r.list|) && r.counter == |r.list| - 1
  {
    Init(newList)
  }

  // ---------------------------------------------------------------------
  // Edits. Each states the edit on the item/key pairs: the items and their
  // keys move together.

  /** `insert(index, item)`: the item and one fresh key go in at `index`. */
  function Insert<T>(d: DynamicList<T>, index: int, item: T): (r: DynamicList<T>)
    requires Valid(d)
    ensures Valid(r)
    ensures r.counter == d.counter + 1 && d.counter + 1 !in d.keys
    ensures Pairs(r) == InsertAt(Pairs(d), index, (item, d.counter + 1))
  {
    var (keys, counter) := SetKey(d.keys, d.counter, index);
    InsertAtMultiset(d.keys, index, counter);
    NoDupOfFreshAddition(d.keys, keys, counter);
    KeysWithin(d.keys, keys, [counter], counter);
    ZipInsertAt(d.list, d.keys, index, item, counter);
    DynamicList(InsertAt(d.list, index, item), keys, counter)
  }

  /** `merge(index, items)`: the items go in at `index` and, at the same
      place, as many fresh keys in increasing order. This is the evidently
      intended behaviour; `MergeAsWritten` is what the source does. */
  function Merge<T>(d: DynamicList<T>, index: int, items: seq<T>): (r: DynamicList<T>)
    requires Valid(d)
    ensures Valid(r)
    ensures r.counter == d.counter + |items|
    ensures Pairs(r) == InsertAllAt(Pairs(d), index, Zip(items, Range(d.counter + 1, |items|)))
  {
    var run := Range(d.counter + 1, |items|);
    var r := DynamicList(InsertAllAt(d.list, index, items), InsertAllAt(d.keys, index, run), d.counter + |items|);
    assert Valid(r) by {
      MergeKeys(d.keys, d.counter, index, |items|);
    }
    ZipInsertAllAt(d.list, d.keys, index, items, run);
    r
  }

  /** A run of fresh keys spliced in anywhere keeps the keys valid. */
  lemma MergeKeys(keys: seq<int>, counter: int, index: int, m: nat)
    requires NoDup(keys) && counter >= -1
    requires forall k :: k in keys ==> 0 <= k <= counter
    ensures NoDup(InsertAllAt(keys, index, Range(counter + 1, m)))
    ensures var r := InsertAllAt(keys, index, Range(counter + 1, m)); forall k :: k in r ==> 0 <= k <= counter + m
  {
    var p := RelPos(index, |keys|);
    var run := Range(counter + 1, m);
    var r := InsertAllAt(keys, index, run);
    assert r == keys[..p] + run + keys[p..];
    NoDupRunInsert(keys, counter, p, m);
    assert keys == keys[..p] + keys[p..];
    assert multiset(r) == multiset(keys) + multiset(run);
    KeysWithin(keys, r, run, counter + m);
  }

  /** `merge(index, items)` as written: the `i`-th fresh key is spliced in at
      `index + i`, each splice reading its own relative position. */
  function MergeAsWritten<T>(d: DynamicList<T>, index: int, items: seq<T>): (r: DynamicList<T>)
    ensures |r.list| == |d.list| + |items|
    ensures |r.keys| == |d.keys| + |items| && r.counter == d.counter + |items|
  {
    var ks := SetKeys(d.keys, d.counter, index, |items|);
    SetKeysLength(d.keys, d.counter, index, |items|);
    DynamicList(InsertAllAt(d.list, index, items), ks.0, ks.1)
  }

  /** From a non-negative index the source's `merge` is the intended one. */
  lemma MergeAsWrittenFromNonNegativeIndex<T>(d: DynamicList<T>, index: int, items: seq<T>)
    requires Valid(d) && 0 <= index
    ensures MergeAsWritten(d, index, items) == Merge(d, index, items)
  {
    var p := RelPos(index, |d.keys|);
    var run := Range(d.counter + 1, |items|);
    var ks := SetKeys(d.keys, d.counter, index, |items|);
    assert ks == SetKeys(d.keys, d.counter, p, |items|) by {
      SetKeysClampedStart(d.keys, d.counter, index, |items|);
    }
    assert ks.0 == InsertAllAt(d.keys, index, run) by {
      SetKeysInsertsRun(d.keys, d.counter, p, |items|);
    }
    assert MergeAsWritten(d, index, items) == DynamicList(InsertAllAt(d.list, index, items), ks.0, ks.1);
    assert Merge(d, index, items) == DynamicList(InsertAllAt(d.list, index, items), InsertAllAt(d.keys, index, run), d.counter + |items|);
  }

  /** Each `SetKeys` step adds one key and one to the counter. */
  lemma {:induction false} SetKeysLength(keys: seq<int>, counter: int, from: int, count: nat)
    ensures |SetKeys(keys, counter, from, count).0| == |keys| + count
    ensures SetKeys(keys, counter, from, count).1 == counter + count
    decreases count
  {
    if count > 0 {
      var keys' := SetKey(keys, counter, from).0;
      assert |keys'| == |keys| + 1;
      SetKeysLength(keys', counter + 1, from + 1, count - 1);
    }
  }

  /** From a non-negative start past the end, every key is appended, exactly
      as when starting at the end. */
  lemma {:induction false} SetKeysClampedStart(keys: seq<int>, counter: int, from: nat, count: nat)
    ensures SetKeys(keys, counter, from, count) == SetKeys(keys, counter, RelPos(from, |keys|), count)
    decreases count
  {
    if count > 0 && from > |keys| {
      var keys' := InsertAt(keys, |keys|, counter + 1);
      assert InsertAt(keys, from, counter + 1) == keys' by {
        assert RelPos(from, |keys|) == RelPos(|keys|, |keys|);
      }
      assert SetKeys(keys, counter, from, count) == SetKeys(keys', counter + 1, from + 1, count - 1);
      assert SetKeys(keys, counter, |keys|, count) == SetKeys(keys', counter + 1, |keys'|, count - 1);
      SetKeysClampedStart(keys', counter + 1, from + 1, count - 1);
      assert RelPos(from + 1, |keys'|) == |keys'|;
    }
  }

  /** `replace(index, item)`: the item at `index` changes; keys, counter and
      every other item stay. An index outside the list changes nothing. This
      is the evidently intended behaviour; `ReplaceAsWritten` is what the
      source does. */
  function Replace<T>(d: DynamicList<T>, index: int, item: T): (r: DynamicList<T>)
    requires Valid(d)
    ensures Valid(r)
    ensures r.keys == d.keys && r.counter == d.counter
    ensures 0 <= index < |d.list| ==> Pairs(r) == Pairs(d)[index := (item, d.keys[index])]
    ensures !(0 <= index < |d.list|) ==> r == d
  {
    if 0 <= index < |d.list| then d.(list := d.list[index := item]) else d
  }

  /** The list as JavaScript holds it when it may contain holes: `None`
      is an `undefined` slot. */
  function Lift<T>(s: seq<T>): (r: seq<Option<T>>)
    ensures |r| == |s| && forall i :: 0 <= i < |s| ==> r[i] == Some(s[i])
  {
    seq(|s|, i requires 0 <= i < |s| => Some(s[i]))
  }

  /** `temp[index] = item` as written: a negative index sets a property that
      is not an element; an index past the end grows the array, leaving
      `undefined` holes before the new item. */
  function ReplaceAsWritten<T>(list: seq<T>, index: int, item: T): (r: seq<Option<T>>)
    ensures 0 <= index < |list| ==> r == Lift(list[index := item])
    ensures index < 0 ==> r == Lift(list)
    ensures index >= |list| ==> |r| == index + 1 && r[index] == Some(item)
  {
    if index < 0 then Lift(list)
    else if index < |list| then Lift(list)[index := Some(item)]
    else Lift(list) + seq(index - |list|, _ => None) + [Some(item)]
  }

  /** `remove(index)`: the item and its key leave from the same position. */
  function Remove<T>(d: DynamicList<T>, index: int): (r: DynamicList<T>)
    requires Valid(d)
    ensures Valid(r)
    ensures r.counter == d.counter
    ensures Pairs(r) == RemoveAt(Pairs(d), index)
  {
    var keys := RemoveAt(d.keys, index);
    NoDupOfSubMultiset(d.keys, keys);
    KeysWithin(d.keys, keys, [], d.counter);
    ZipRemoveAt(d.list, d.keys, index);
    DynamicList(RemoveAt(d.list, index), keys, d.counter)
  }

  /** `move(oldIndex, newIndex)`: the item at `oldIndex` is taken out and
      spliced back in at `newIndex`, and its key with it. Equal indices, and
      an `oldIndex` that is not an index of the list, change nothing. This
      is the evidently intended behaviour; `MoveAsWritten` is what the source
      does. */
  function Move<T>(d: DynamicList<T>, oldIndex: int, newIndex: int): (r: DynamicList<T>)
    requires Valid(d)
    ensures Valid(r)
    ensures r.counter == d.counter
    ensures multiset(r.list) == multiset(d.list)
    ensures oldIndex == newIndex || !(0 <= oldIndex < |d.list|) ==> r == d
    ensures oldIndex != newIndex && 0 <= oldIndex < |d.list| ==>
      Pairs(r) == InsertAt(WithoutIndex(Pairs(d), oldIndex), newIndex, Pairs(d)[oldIndex])
  {
    if oldIndex == newIndex || !(0 <= oldIndex < |d.list|) then d
    else
      var keys := InsertAt(WithoutIndex(d.keys, oldIndex), newIndex, d.keys[oldIndex]);
      assert multiset(keys) == multiset(d.keys) by {
        InsertAtMultiset(WithoutIndex(d.keys, oldIndex), newIndex, d.keys[oldIndex]);
      }
      InsertAtMultiset(WithoutIndex(d.list, oldIndex), newIndex, d.list[oldIndex]);
      NoDupOfSubMultiset(d.keys, keys);
      KeysWithin(d.keys, keys, [], d.counter);
      ZipWithoutIndex(d.list, d.keys, oldIndex);
      ZipInsertAt(WithoutIndex(d.list, oldIndex), WithoutIndex(d.keys, oldIndex), newIndex, d.list[oldIndex], d.keys[oldIndex]);
      DynamicList(InsertAt(WithoutIndex(d.list, oldIndex), newIndex, d.list[oldIndex]), keys, d.counter)
  }

  /** `move(oldIndex, newIndex)` as written, on lists that may hold
      `undefined`: `newList[oldIndex]` and `keyList[oldIndex]` are read even
      when `oldIndex` is not an index. */
  function MoveAsWritten<T>(list: seq<T>, keys: seq<int>, oldIndex: int, newIndex: int): (r: (seq<Option<T>>, seq<Option<int>>))
    ensures oldIndex == newIndex ==> r == (Lift(list), Lift(keys))
    ensures oldIndex != newIndex && !(0 <= oldIndex < |list|) ==> |r.0| == |list| + 1
  {
    if oldIndex == newIndex then (Lift(list), Lift(keys))
    else
      (InsertAt(WithoutIndex(Lift(list), oldIndex), newIndex, At(list, oldIndex)),
       InsertAt(WithoutIndex(Lift(keys), oldIndex), newIndex, At(keys, oldIndex)))
  }

  /** `push(item)`: the item and a fresh key go at the end. */
  function Push<T>(d: DynamicList<T>, item: T): (r: DynamicList<T>)
    requires Valid(d)
    ensures Valid(r)
    ensures r.counter == d.counter + 1
    ensures Pairs(r) == Pairs(d) + [(item, d.counter + 1)]
  {
    var (keys, counter) := SetKey(d.keys, d.counter, |d.list|);
    InsertAtMultiset(d.keys, |d.list|, counter);
    NoDupOfFreshAddition(d.keys, keys, counter);
    KeysWithin(d.keys, keys, [counter], counter);
    assert keys == d.keys + [counter];
    DynamicList(d.list + [item], keys, counter)
  }

  /** `pop()`: `slice(0, length - 1)` of the keys and of the items. */
  function Pop<T>(d: DynamicList<T>): (r: DynamicList<T>)
    requires Valid(d)
    ensures Valid(r)
    ensures r.counter == d.counter
    ensures Pairs(r) == Slice(Pairs(d), 0, |d.list| - 1)
    ensures |d.list| > 0 ==> Pairs(r) == Pairs(d)[..|d.list| - 1]
    ensures |d.list| == 0 ==> r.list == []
  {
    var keys := Slice(d.keys, 0, |d.keys| - 1);
    NoDupOfSubMultiset(d.keys, keys);
    KeysWithin(d.keys, keys, [], d.counter);
    ZipSlice(d.list, d.keys, 0, |d.list| - 1);
    DynamicList(Slice(d.list, 0, |d.list| - 1), keys, d.counter)
  }

  /** `unshift(item)`: the item and a fresh key go at the front. */
  function Unshift<T>(d: DynamicList<T>, item: T): (r: DynamicList<T>)
    requires Valid(d)
    ensures Valid(r)
    ensures r.counter == d.counter + 1
    ensures Pairs(r) == [(item, d.counter + 1)] + Pairs(d)
  {
    var (keys, counter) := SetKey(d.keys, d.counter, 0);
    InsertAtMultiset(d.keys, 0, counter);
    NoDupOfFreshAddition(d.keys, keys, counter);
    KeysWithin(d.keys, keys, [counter], counter);
    assert keys == [counter] + d.keys;
    DynamicList([item] + d.list, keys, counter)
  }

  /** `shift()`: `slice(1, length)` of the keys and of the items. */
  function Shift<T>(d: DynamicList<T>): (r: DynamicList<T>)
    requires Valid(d)
    ensures Valid(r)
    ensures r.counter == d.counter
    ensures Pairs(r) == Slice(Pairs(d), 1, |d.list|)
    ensures |d.list| > 0 ==> Pairs(r) == Pairs(d)[1..]
    ensures |d.list| == 0 ==> r.list == []
  {
    var keys := Slice(d.keys, 1, |d.keys|);
    NoDupOfSubMultiset(d.keys, keys);
    KeysWithin(d.keys, keys, [], d.counter);
    ZipSlice(d.list, d.keys, 1, |d.list|);
    DynamicList(Slice(d.list, 1, |d.list|), keys, d.counter)
  }

  // ---------------------------------------------------------------------
  // Lookups

  /** `getKey(index)`: the key at `index`, `undefined` outside the list. */
  function GetKey<T>(d: DynamicList<T>, index: int): (r: Option<int>)
    ensures r.Some? <==> 0 <= index < |d.keys|
    ensures r.Some? ==> r.value == d.keys[index]
  {
    At(d.keys, index)
  }

  /** `getIndex(key)`: the position of `key`, or -1 when no item has it. */
  function GetIndex<T>(d: DynamicList<T>, key: int): (r: int)
    ensures -1 <= r < |d.keys|
    ensures r == -1 <==> key !in d.keys
    ensures 0 <= r ==> GetKey(d, r) == Some(key)
    ensures 0 <= r ==> forall j :: 0 <= j < r ==> d.keys[j] != key
  {
    FindIndex(d.keys, key)
  }

  /** Keys identify positions: `getIndex(getKey(i)) == i`. */
  lemma GetIndexOfGetKey<T>(d: DynamicList<T>, i: int)
    requires Valid(d) && 0 <= i < |d.list|
    ensures GetIndex(d, GetKey(d, i).value) == i
  {
    var k := GetIndex(d, d.keys[i]);
    assert d.keys[k] == d.keys[i];
  }
}

=== FILE: dynamic_list_lemmas.dfy ===
/** Properties of `useDynamicList` that relate several operations, and the
    inputs on which the source's `merge`, `replace` and `move` depart from
    the behaviour the rest of the hook relies on: every item keeps the key
    it was given, and the key list stays as long as the list. */
module DynamicListLemmas {
  import opened Wrappers
  import opened JsArrays
  import opened DynamicList

  /** A state is determined by its pairs and its counter. */
  lemma PairsDetermine<T>(a: DynamicList<T>, b: DynamicList<T>)
    requires |a.list| == |a.keys| && |b.list| == |b.keys|
    requires Pairs(a) == Pairs(b) && a.counter == b.counter
    ensures a == b
  {
    assert |a.list| == |Pairs(a)| == |b.list|;
    assert forall i :: 0 <= i < |a.list| ==> Pairs(a)[i] == (a.list[i], a.keys[i]);
    assert forall i :: 0 <= i < |b.list| ==> Pairs(b)[i] == (b.list[i], b.keys[i]);
  }

  /** `remove` at the position `insert` used takes the new item out again. */
  lemma RemoveUndoesInsert<T>(d: DynamicList<T>, index: int, item: T)
    requires Valid(d)
    ensures var r := Remove(Insert(d, index, item), RelPos(index, |d.list|));
      r.list == d.list && r.keys == d.keys
  {
    var r := Remove(Insert(d, index, item), RelPos(index, |d.list|));
    RemoveAtInsertAt(Pairs(d), index, (item, d.counter + 1));
    PairsDetermine(r, DynamicList(d.list, d.keys, r.counter));
  }

  /** `pop` undoes `push`. */
  lemma PopUndoesPush<T>(d: DynamicList<T>, item: T)
    requires Valid(d)
    ensures var r := Pop(Push(d, item)); r.list == d.list && r.keys == d.keys
  {
    var r := Pop(Push(d, item));
    assert Pairs(r) == (Pairs(d) + [(item, d.counter + 1)])[..|d.list|];
    assert Pairs(r) == Pairs(d);
    PairsDetermine(r, DynamicList(d.list, d.keys, r.counter));
  }

  /** `shift` undoes `unshift`. */
  lemma ShiftUndoesUnshift<T>(d: DynamicList<T>, item: T)
    requires Valid(d)
    ensures var r := Shift(Unshift(d, item)); r.list == d.list && r.keys == d.keys
  {
    var r := Shift(Unshift(d, item));
    assert Pairs(r) == ([(item, d.counter + 1)] + Pairs(d))[1..];
    assert Pairs(r) == Pairs(d);
    PairsDetermine(r, DynamicList(d.list, d.keys, r.counter));
  }

  /** Moving an item back from where `move` put it restores the list, keys
      included. */
  lemma MoveBack<T>(d: DynamicList<T>, oldIndex: int, newIndex: int)
    requires Valid(d) && 0 <= oldIndex < |d.list|
    ensures Move(Move(d, oldIndex, newIndex), RelPos(newIndex, |d.list| - 1), oldIndex) == d
  {
    if oldIndex != newIndex {
      var m := Move(d, oldIndex, newIndex);
      var s := Pairs(d);
      var t := WithoutIndex(s, oldIndex);
      var q := RelPos(newIndex, |t|);
      assert Pairs(m) == InsertAt(t, newIndex, s[oldIndex]);
      assert WithoutIndex(Pairs(m), q) == t by {
        WithoutIndexInsertAt(t, newIndex, s[oldIndex]);
      }
      assert InsertAt(t, oldIndex, s[oldIndex]) == s by {
        InsertAtWithoutIndex(s, oldIndex);
      }
      if q == oldIndex {
        assert Pairs(m) == s;
        PairsDetermine(m, d);
      } else {
        MoveBackStep(m, q, oldIndex, t, s[oldIndex]);
        PairsDetermine(Move(m, q, oldIndex), d);
      }
    }
  }

  lemma MoveBackStep<T>(m: DynamicList<T>, q: int, a: int, t: seq<(T, int)>, x: (T, int))
    requires Valid(m) && 0 <= q < |m.list| && q != a
    requires Pairs(m)[q] == x && WithoutIndex(Pairs(m), q) == t
    ensures Pairs(Move(m, q, a)) == InsertAt(t, a, x)
  {
  }

  /** The key `insert` hands out is found at the position the item went to. */
  lemma InsertedKeyIsFound<T>(d: DynamicList<T>, index: int, item: T)
    requires Valid(d)
    ensures GetIndex(Insert(d, index, item), d.counter + 1) == RelPos(index, |d.list|)
  {
    var r := Insert(d, index, item);
    var p := RelPos(index, |d.list|);
    assert Pairs(r)[p] == (item, d.counter + 1);
    assert r.keys[p] == d.counter + 1;
    assert NoDupAt(r.keys, p);
  }

  /** No other position of a duplicate-free list holds the same key. */
  predicate NoDupAt(keys: seq<int>, p: int)
    requires 0 <= p < |keys|
  {
    forall j :: 0 <= j < |keys| && keys[j] == keys[p] ==> j == p
  }

  // ---- merge at a negative index ------------------------------------------

  /** The source's `merge` re-keys an existing item when the index is
      negative: merging `[30, 40]` at `-1` into `[10, 20]` gives `10` the key
      `3` and `30` the key `0` that `10` had. */
  lemma MergeNegativeIndexRekeys()
    ensures var d := Init(Some([10, 20]));
      var r := MergeAsWritten(d, -1, [30, 40]);
      d.keys == [0, 1] && r.list == [10, 30, 40, 20] && r.keys == [3, 0, 2, 1]
  {
    InitOfTwo();
    MergeOfTwo();
  }

  lemma MergeOfTwo()
    ensures MergeAsWritten(DynamicList([10, 20], [0, 1], 1), -1, [30, 40]) == DynamicList([10, 30, 40, 20], [3, 0, 2, 1], 3)
  {
    SetKeysAtMinusOne();
    assert InsertAllAt([10, 20], -1, [30, 40]) == [10, 30, 40, 20] by {
      assert RelPos(-1, 2) == 1;
    }
  }

  lemma InitOfTwo()
    ensures Init(Some([10, 20])) == DynamicList([10, 20], [0, 1], 1)
  {
    var d := Init(Some([10, 20]));
    assert d.keys == Range(0, 2);
  }

  lemma SetKeysAtMinusOne()
    ensures SetKeys([0, 1], 1, -1, 2) == ([3, 0, 2, 1], 3)
  {
    assert SetKey([0, 1], 1, -1).0 == [0, 2, 1] by {
      assert RelPos(-1, 2) == 1;
    }
    assert SetKey([0, 2, 1], 2, 0).0 == [3, 0, 2, 1];
  }

  /** The corrected `merge` keeps `10` and `20` on their keys there. */
  lemma MergeNegativeIndexKeepsKeys()
    ensures var d := Init(Some([10, 20]));
      var r := Merge(d, -1, [30, 40]);
      r.list == [10, 30, 40, 20] && r.keys == [0, 2, 3, 1]
  {
    var d := Init(Some([10, 20]));
    assert d.keys == [0, 1] && d.counter == 1;
    var r := Merge(d, -1, [30, 40]);
    assert RelPos(-1, 2) == 1;
    assert Pairs(r) == [(10, 0), (30, 2), (40, 3), (20, 1)];
    assert |r.list| == 4;
  }

  /** Every item already in the list keeps its key under the corrected
      `merge`, wherever the new items go: in place before the insertion
      point, `|items|` further on after it. */
  lemma MergeKeepsExistingKeys<T>(d: DynamicList<T>, index: int, items: seq<T>, i: int)
    requires Valid(d) && 0 <= i < |d.list|
    ensures var r := Merge(d, index, items);
      var j := if i < RelPos(index, |d.list|) then i else i + |items|;
      0 <= j < |r.list| && r.list[j] == d.list[i] && r.keys[j] == d.keys[i]
  {
    var r := Merge(d, index, items);
    LockstepShift(d.list, d.keys, index, items, Range(d.counter + 1, |items|), i);
  }

  /** Splicing into two sequences at the same index moves their `i`-th
      elements to the same place. */
  lemma LockstepShift<A, B>(a: seq<A>, b: seq<B>, index: int, xs: seq<A>, ys: seq<B>, i: int)
    requires |a| == |b| && |xs| == |ys| && 0 <= i < |a|
    ensures var j := if i < RelPos(index, |a|) then i else i + |xs|;
      0 <= j < |InsertAllAt(a, index, xs)| && InsertAllAt(a, index, xs)[j] == a[i] && InsertAllAt(b, index, ys)[j] == b[i]
  {
    InsertAllAtShifts(a, index, xs, i);
    InsertAllAtShifts(b, index, ys, i);
  }

  // ---- replace past the end -----------------------------------------------

  /** The source's `replace` past the end grows the list without giving the
      new slot a key, and leaves `undefined` holes before it. */
  lemma ReplacePastEndUnpairs<T>(d: DynamicList<T>, index: int, item: T)
    requires Valid(d) && |d.list| <= index
    ensures |ReplaceAsWritten(d.list, index, item)| != |d.keys|
    ensures |d.list| < index ==> ReplaceAsWritten(d.list, index, item)[|d.list|] == None
  {
  }

  /** Inside the list, the source's `replace` is the corrected one. */
  lemma ReplaceAsWrittenInRange<T>(d: DynamicList<T>, index: int, item: T)
    requires Valid(d) && 0 <= index < |d.list|
    ensures ReplaceAsWritten(d.list, index, item) == Lift(Replace(d, index, item).list)
  {
    var r := Replace(d, index, item);
    assert Pairs(r)[index] == (item, d.keys[index]);
    assert forall j :: 0 <= j < |d.list| && j != index ==> Pairs(r)[j] == Pairs(d)[j];
    assert r.list == d.list[index := item];
  }

  // ---- move from outside the list -----------------------------------------

  /** The source's `move` from an `oldIndex` outside the list inserts an
      `undefined` item with an `undefined` key at `newIndex`. */
  lemma MoveFromOutsideInsertsUndefined<T>(d: DynamicList<T>, oldIndex: int, newIndex: int)
    requires Valid(d) && !(0 <= oldIndex < |d.list|) && oldIndex != newIndex
    ensures var r := MoveAsWritten(d.list, d.keys, oldIndex, newIndex);
      |r.0| == |d.list| + 1 && r.0[RelPos(newIndex, |d.list|)] == None &&
      |r.1| == |d.keys| + 1 && r.1[RelPos(newIndex, |d.keys|)] == None
  {
  }

  /** Lifting commutes with the array edits `move` uses. */
  lemma LiftMove<T>(s: seq<T>, a: int, b: int)
    requires 0 <= a < |s|
    ensures InsertAt(WithoutIndex(Lift(s), a), b, Some(s[a])) == Lift(InsertAt(WithoutIndex(s, a), b, s[a]))
  {
    LiftWithoutIndex(s, a);
    LiftInsertAt(WithoutIndex(s, a), b, s[a]);
  }

  lemma LiftWithoutIndex<T>(s: seq<T>, a: int)
    ensures WithoutIndex(Lift(s), a) == Lift(WithoutIndex(s, a))
  {
    var l := WithoutIndex(Lift(s), a);
    var r := Lift(WithoutIndex(s, a));
    assert |l| == |r|;
    if 0 <= a < |s| {
      forall j | 0 <= j < |l| ensures l[j] == r[j] {
        if j < a {
          assert l[j] == Lift(s)[j];
        } else {
          assert l[j] == Lift(s)[j + 1];
        }
      }
    }
  }

  lemma LiftInsertAt<T>(t: seq<T>, b: int, x: T)
    ensures InsertAt(Lift(t), b, Some(x)) == Lift(InsertAt(t, b, x))
  {
    var l := InsertAt(Lift(t), b, Some(x));
    var r := Lift(InsertAt(t, b, x));
    var p := RelPos(b, |t|);
    assert |l| == |r|;
    forall j | 0 <= j < |l| ensures l[j] == r[j] {
      if j < p {
        assert l[j] == Lift(t)[j];
      } else if j > p {
        assert l[j] == Lift(t)[j - 1];
      }
    }
  }

  /** From an index of the list, the source's `move` is the corrected one. */
  lemma MoveAsWrittenInRange<T>(d: DynamicList<T>, oldIndex: int, newIndex: int)
    requires Valid(d) && 0 <= oldIndex < |d.list|
    ensures var m := Move(d, oldIndex, newIndex);
      MoveAsWritten(d.list, d.keys, oldIndex, newIndex) == (Lift(m.list), Lift(m.keys))
  {
    var m := Move(d, oldIndex, newIndex);
    if oldIndex != newIndex {
      LiftMove(d.list, oldIndex, newIndex);
      LiftMove(d.keys, oldIndex, newIndex);
      var s := Pairs(d);
      var t := InsertAt(WithoutIndex(s, oldIndex), newIndex, s[oldIndex]);
      ZipWithoutIndex(d.list, d.keys, oldIndex);
      ZipInsertAt(WithoutIndex(d.list, oldIndex), WithoutIndex(d.keys, oldIndex), newIndex, d.list[oldIndex], d.keys[oldIndex]);
      assert Pairs(m) == t;
      var want := DynamicList(InsertAt(WithoutIndex(d.list, oldIndex), newIndex, d.list[oldIndex]),
                              InsertAt(WithoutIndex(d.keys, oldIndex), newIndex, d.keys[oldIndex]), m.counter);
      assert Pairs(want) == t;
      PairsDetermine(m, want);
    }
  }
}

=== FILE: js_arrays.dfy ===
/** The index conventions of JavaScript's array methods, on immutable
    sequences. `splice` and `slice` read a start or end position relative to
    the array: a negative value counts back from the end, and the result is
    clamped to `[0, length]`. Element access out of range yields `undefined`. */
module JsArrays {
  import opened Wrappers

  /** The position `splice`/`slice` resolve a relative index `i` to in an
      array of length `len`. */
  function RelPos(i: int, len: nat): (p: nat)
    ensures p <= len
    ensures 0 <= i ==> p == (if i <= len then i else len)
    ensures i < 0 ==> p == (if len + i < 0 then 0 else len + i)
  {
    if i < 0 then (if len + i < 0 then 0 else len + i)
    else if i <= len then i
    else len
  }

  /** `a.splice(i, 0, x)`: insert `x` at the relative position `i`. */
  function InsertAt<T>(s: seq<T>, i: int, x: T): (r: seq<T>)
    ensures |r| == |s| + 1
    ensures r[RelPos(i, |s|)] == x
    ensures forall j :: 0 <= j < RelPos(i, |s|) ==> r[j] == s[j]
    ensures forall j :: RelPos(i, |s|) < j < |r| ==> r[j] == s[j - 1]
  {
    var p := RelPos(i, |s|);
    s[..p] + [x] + s[p..]
  }

  /** `splice(i, 0, x)` adds exactly one `x` to the elements. */
  lemma InsertAtMultiset<T>(s: seq<T>, i: int, x: T)
    ensures multiset(InsertAt(s, i, x)) == multiset(s) + multiset{x}
  {
    var p := RelPos(i, |s|);
    assert s == s[..p] + s[p..];
  }

  /** `a.splice(i, 0, ...xs)`: insert all of `xs`, in order, at the relative
      position `i`. */
  function InsertAllAt<T>(s: seq<T>, i: int, xs: seq<T>): (r: seq<T>)
    ensures |r| == |s| + |xs|
  {
    var p := RelPos(i, |s|);
    s[..p] + xs + s[p..]
  }

  /** `a.splice(i, 1)`: delete the element at the relative position `i`, if
      there is one. */
  function RemoveAt<T>(s: seq<T>, i: int): (r: seq<T>)
    ensures RelPos(i, |s|) < |s| ==> |r| == |s| - 1
    ensures RelPos(i, |s|) == |s| ==> r == s
    ensures forall j :: 0 <= j < RelPos(i, |s|) && j < |r| ==> r[j] == s[j]
    ensures forall j :: RelPos(i, |s|) <= j < |r| ==> r[j] == s[j + 1]
    ensures multiset(r) <= multiset(s)
  {
    var p := RelPos(i, |s|);
    if p < |s| then
      var r := s[..p] + s[p + 1..];
      assert multiset(r) <= multiset(s) by {
        assert s == s[..p] + [s[p]] + s[p + 1..];
      }
      r
    else s
  }

  /** `a.slice(b, e)`: the elements from relative position `b` up to, not
      including, relative position `e`; empty when `e` resolves before `b`. */
  function Slice<T>(s: seq<T>, b: int, e: int): (r: seq<T>)
    ensures RelPos(b, |s|) <= RelPos(e, |s|) ==> |r| == RelPos(e, |s|) - RelPos(b, |s|)
    ensures RelPos(b, |s|) > RelPos(e, |s|) ==> r == []
    ensures forall j :: 0 <= j < |r| ==> r[j] == s[RelPos(b, |s|) + j]
    ensures multiset(r) <= multiset(s)
  {
    var lo, hi := RelPos(b, |s|), RelPos(e, |s|);
    if lo <= hi then
      var r := s[lo..hi];
      assert multiset(r) <= multiset(s) by {
        assert s == s[..lo] + r + s[hi..];
      }
      r
    else []
  }

  /** `a[i]`: the element at index `i`, or `undefined` outside the array
      (negative indices do not count from the end here). */
  function At<T>(s: seq<T>, i: int): (r: Option<T>)
    ensures r.Some? <==> 0 <= i < |s|
    ensures r.Some? ==> r.value == s[i]
  {
    if 0 <= i < |s| then Some(s[i]) else None
  }

  /** `a.filter((_, j) => j !== i)`: drop the element at exactly index `i`,
      keeping everything when `i` is not an index of `a`. */
  function WithoutIndex<T>(s: seq<T>, i: int): (r: seq<T>)
    ensures 0 <= i < |s| ==> |r| == |s| - 1
    ensures !(0 <= i < |s|) ==> r == s
    ensures forall j :: 0 <= j < |r| && j < i ==> r[j] == s[j]
    ensures forall j :: 0 <= i <= j < |r| ==> r[j] == s[j + 1]
    ensures 0 <= i < |s| ==> multiset(r) + multiset{s[i]} == multiset(s)
  {
    if 0 <= i < |s| then
      var r := s[..i] + s[i + 1..];
      assert multiset(r) + multiset{s[i]} == multiset(s) by {
        assert s == s[..i] + [s[i]] + s[i + 1..];
      }
      r
    else s
  }

  /** `a.findIndex(e => e === x)`: the first index holding `x`, or -1. */
  function FindIndex<T(==)>(s: seq<T>, x: T): (r: int)
    ensures -1 <= r < |s|
    ensures r == -1 <==> x !in s
    ensures 0 <= r ==> s[r] == x && forall j :: 0 <= j < r ==> s[j] != x
  {
    if |s| == 0 then -1
    else if s[0] == x then 0
    else
      var k := FindIndex(s[1..], x);
      if k < 0 then -1 else k + 1
  }

  /** The integers `lo, lo + 1, ..., lo + n - 1`. */
  function Range(lo: int, n: nat): (r: seq<int>)
    ensures |r| == n
    ensures forall j :: 0 <= j < n ==> r[j] == lo + j
  {
    seq(n, j => lo + j)
  }

  /** `splice(i, 1)` at the position `splice(i, 0, x)` used undoes it. */
  lemma RemoveAtInsertAt<T>(s: seq<T>, i: int, x: T)
    ensures RemoveAt(InsertAt(s, i, x), RelPos(i, |s|)) == s
  {
    var r := InsertAt(s, i, x);
    assert RelPos(RelPos(i, |s|), |r|) == RelPos(i, |s|);
  }

  /** Filtering out the index `splice(i, 0, x)` filled undoes it. */
  lemma WithoutIndexInsertAt<T>(s: seq<T>, i: int, x: T)
    ensures WithoutIndex(InsertAt(s, i, x), RelPos(i, |s|)) == s
  {
  }

  /** Putting an element back where it was filtered out from restores the
      array. */
  lemma InsertAtWithoutIndex<T>(s: seq<T>, i: int)
    requires 0 <= i < |s|
    ensures InsertAt(WithoutIndex(s, i), i, s[i]) == s
  {
    var t := WithoutIndex(s, i);
    assert RelPos(i, |t|) == i;
  }

  /** The element `splice(i, 0, ...xs)` leaves at each position. */
  lemma InsertAllAtIndex<T>(s: seq<T>, i: int, xs: seq<T>, j: int)
    requires 0 <= j < |s| + |xs|
    ensures var p := RelPos(i, |s|);
      InsertAllAt(s, i, xs)[j] == if j < p then s[j] else if j < p + |xs| then xs[j - p] else s[j - |xs|]
  {
  }

  /** Where `splice(i, 0, ...xs)` leaves each old element: in place before
      the insertion point, `|xs|` further on after it. */
  lemma InsertAllAtShifts<T>(s: seq<T>, i: int, xs: seq<T>, j: int)
    requires 0 <= j < |s|
    ensures var r := InsertAllAt(s, i, xs);
      (j < RelPos(i, |s|) ==> r[j] == s[j]) &&
      (RelPos(i, |s|) <= j ==> j + |xs| < |r| && r[j + |xs|] == s[j])
  {
    var r := InsertAllAt(s, i, xs);
    var p := RelPos(i, |s|);
    if j < p {
      assert r[..p][j] == s[..p][j];
    } else {
      assert r[p + |xs|..][j - p] == s[p..][j - p];
    }
  }
}

=== FILE: map_state.dfy ===
/** `useMap(initialValue)`: a `Map` held as state.

    `set` and `remove` first mutate the live map object in place and then
    store a copy of it. Until the first such action the live map is the
    `initialMap` object itself, so that first mutation also changes
    `initialMap`, and so does the first one after every `reset`. The state
    records this aliasing explicitly: `aliased` holds while the live map is
    the `initialMap` object. `initialMap` is built once, when the hook is
    created: the memo keeps it for `useMap()` and for an `initialValue` that
    keeps its identity across renders. A new `initialValue` object would
    rebuild it, and that is not modelled. Iteration order of a `Map` is not
    modelled. */
module MapState {
  import opened Wrappers

  datatype MapHook<K, V> = MapHook(initialMap: map<K, V>, current: map<K, V>, aliased: bool)

  /** `new Map(entries)`: later entries for the same key win. */
  function FromEntries<K, V>(entries: seq<(K, V)>): (m: map<K, V>)
    ensures forall i :: 0 <= i < |entries| ==> entries[i].0 in m
  {
    if entries == [] then map[]
    else
      var last := entries[|entries| - 1];
      var prev := FromEntries(entries[..|entries| - 1]);
      assert forall i :: 0 <= i < |entries| - 1 ==> entries[i] == entries[..|entries| - 1][i];
      prev[last.0 := last.1]
  }

  /** `initialMap`: empty without an initial value. */
  function InitialMap<K, V>(initialValue: Option<seq<(K, V)>>): (m: map<K, V>)
    ensures initialValue.None? ==> m == map[]
    ensures initialValue.Some? ==> forall i :: 0 <= i < |initialValue.value| ==> initialValue.value[i].0 in m
  {
    if initialValue.None? then map[] else FromEntries(initialValue.value)
  }

  /** The hook's state right after creation: the live map is `initialMap`. */
  function Init<K, V>(initialValue: Option<seq<(K, V)>>): (h: MapHook<K, V>)
    ensures h.initialMap == InitialMap(initialValue) && h.current == h.initialMap && h.aliased
  {
    var m := InitialMap(initialValue);
    MapHook(m, m, true)
  }

  /** `get(key)`: `None` is `undefined`. */
  function Get<K, V>(h: MapHook<K, V>, key: K): (r: Option<V>)
    ensures r.Some? <==> key in h.current
    ensures r.Some? ==> r.value == h.current[key]
  {
    if key in h.current then Some(h.current[key]) else None
  }

  /** `set(key, value)` as written: `map.set` on the live object, then a
      copy becomes the state. */
  function Set<K, V>(h: MapHook<K, V>, key: K, value: V): (r: MapHook<K, V>)
    ensures Get(r, key) == Some(value)
    ensures forall k :: k in h.current && k != key ==> k in r.current && r.current[k] == h.current[k]
    ensures forall k :: k in r.current ==> k in h.current || k == key
    ensures !r.aliased
    ensures h.aliased ==> r.initialMap == r.current
    ensures !h.aliased ==> r.initialMap == h.initialMap
  {
    var m := h.current[key := value];
    MapHook(if h.aliased then m else h.initialMap, m, false)
  }

  /** `remove(key)` as written: `map.delete` on the live object, then a copy. */
  function Remove<K, V>(h: MapHook<K, V>, key: K): (r: MapHook<K, V>)
    ensures Get(r, key) == None
    ensures forall k :: k in h.current && k != key ==> k in r.current && r.current[k] == h.current[k]
    ensures forall k :: k in r.current ==> k in h.current
    ensures !r.aliased
    ensures h.aliased ==> r.initialMap == r.current
    ensures !h.aliased ==> r.initialMap == h.initialMap
  {
    var m := h.current - {key};
    MapHook(if h.aliased then m else h.initialMap, m, false)
  }

  /** `set` as evidently intended: the live map changes, `initialMap` does
      not. */
  function SetFixed<K, V>(h: MapHook<K, V>, key: K, value: V): (r: MapHook<K, V>)
    ensures r.initialMap == h.initialMap
    ensures Get(r, key) == Some(value)
    ensures forall k :: k in h.current && k != key ==> k in r.current && r.current[k] == h.current[k]
    ensures forall k :: k in r.current ==> k in h.current || k == key
  {
    MapHook(h.initialMap, h.current[key := value], false)
  }

  /** `remove` as evidently intended. */
  function RemoveFixed<K, V>(h: MapHook<K, V>, key: K): (r: MapHook<K, V>)
    ensures r.initialMap == h.initialMap
    ensures Get(r, key) == None
    ensures forall k :: k in h.current && k != key ==> k in r.current && r.current[k] == h.current[k]
    ensures forall k :: k in r.current ==> k in h.current
  {
    MapHook(h.initialMap, h.current - {key}, false)
  }

  /** `setAll(entries)`: a new map from the entries replaces the state. */
  function SetAll<K, V>(h: MapHook<K, V>, entries: seq<(K, V)>): (r: MapHook<K, V>)
    ensures r.initialMap == h.initialMap && !r.aliased
    ensures forall i :: 0 <= i < |entries| ==> entries[i].0 in r.current
  {
    MapHook(h.initialMap, FromEntries(entries), false)
  }

  /** `reset()`: the `initialMap` object becomes the live map again. */
  function Reset<K, V>(h: MapHook<K, V>): (r: MapHook<K, V>)
    ensures r.initialMap == h.initialMap && r.current == h.initialMap && r.aliased
  {
    MapHook(h.initialMap, h.initialMap, true)
  }
}

=== FILE: map_state_lemmas.dfy ===
/** `setAll`'s entry order, and what `reset` gives back. */
module MapStateLemmas {
  import opened Wrappers
  import opened MapState

  /** `new Map(entries)` holds exactly the keys of the entries, each with the
      value of its last entry. */
  lemma {:induction false} FromEntriesLastWins<K, V>(entries: seq<(K, V)>, i: int)
    requires 0 <= i < |entries|
    requires forall j :: i < j < |entries| ==> entries[j].0 != entries[i].0
    ensures FromEntries(entries)[entries[i].0] == entries[i].1
    decreases |entries|
  {
    if i < |entries| - 1 {
      var init := entries[..|entries| - 1];
      assert init[i] == entries[i];
      FromEntriesLastWins(init, i);
    }
  }

  lemma {:induction false} FromEntriesKeys<K, V>(entries: seq<(K, V)>, k: K)
    ensures k in FromEntries(entries) <==> exists i :: 0 <= i < |entries| && entries[i].0 == k
    decreases |entries|
  {
    if entries != [] {
      var init := entries[..|entries| - 1];
      FromEntriesKeys(init, k);
      if exists i :: 0 <= i < |init| && init[i].0 == k {
        var i :| 0 <= i < |init| && init[i].0 == k;
        assert entries[i].0 == k;
      }
    }
  }

  /** Entry `i` is the last one for key `k`. */
  predicate IsLastFor<K(==), V>(entries: seq<(K, V)>, i: int, k: K)
    requires 0 <= i < |entries|
  {
    entries[i].0 == k && forall j :: i < j < |entries| ==> entries[j].0 != k
  }

  /** After `setAll(entries)` the map holds the entries' keys, each with its
      last value. */
  lemma SetAllContents<K, V>(h: MapHook<K, V>, entries: seq<(K, V)>, k: K)
    ensures Get(SetAll(h, entries), k).Some? <==> exists i :: 0 <= i < |entries| && entries[i].0 == k
    ensures forall i :: 0 <= i < |entries| && IsLastFor(entries, i, k) ==> Get(SetAll(h, entries), k) == Some(entries[i].1)
  {
    FromEntriesKeys(entries, k);
    forall i | 0 <= i < |entries| && IsLastFor(entries, i, k)
      ensures Get(SetAll(h, entries), k) == Some(entries[i].1)
    {
      FromEntriesLastWins(entries, i);
    }
  }

  /** As written, with `initialMap` held from creation: `reset()` after the
      first `set` keeps the value set, because that `set` wrote into
      `initialMap`. Starting from no initial value,
      `set(k, v)` then `reset()` leaves `get(k) == v`. */
  lemma ResetAfterFirstSetKeepsValue<K, V>(initialValue: Option<seq<(K, V)>>, k: K, v: V)
    ensures Get(Reset(Set(Init(initialValue), k, v)), k) == Some(v)
    ensures initialValue.None? ==> Get(Init(initialValue), k) == None
  {
  }

  /** As written, with `initialMap` held from creation: a `remove` right
      after `reset()` also reaches `initialMap`,
      so a second `reset()` does not bring the removed entry back. */
  lemma ResetAfterRemoveLosesEntry<K, V>(h: MapHook<K, V>, k: K)
    requires k in h.initialMap
    ensures Get(Reset(Remove(Reset(h), k)), k) == None
  {
  }

  /** With `initialMap` held from creation: once the live map is a copy,
      `set` leaves `initialMap` alone, so only the first mutation after
      creation or `reset` leaks into it. */
  lemma LaterSetsLeaveInitial<K, V>(h: MapHook<K, V>, k1: K, v1: V, k2: K, v2: V)
    ensures Set(Set(h, k1, v1), k2, v2).initialMap == Set(h, k1, v1).initialMap
  {
  }

  /** The actions of the hook, for running a sequence of them. */
  datatype Action<K, V> = SetAction(k: K, v: V) | RemoveAction(k: K) | SetAllAction(entries: seq<(K, V)>) | ResetAction

  /** Runs the actions with the corrected `set` and `remove`. */
  function RunFixed<K, V>(h: MapHook<K, V>, actions: seq<Action<K, V>>): (r: MapHook<K, V>)
    decreases |actions|
  {
    if actions == [] then h
    else
      var a := actions[0];
      var h' := match a
        case SetAction(k, v) => SetFixed(h, k, v)
        case RemoveAction(k) => RemoveFixed(h, k)
        case SetAllAction(entries) => SetAll(h, entries)
        case ResetAction => Reset(h);
      RunFixed(h', actions[1..])
  }

  /** Corrected: whatever actions run, `initialMap` is untouched and
      `reset()` restores the map the hook started with. */
  lemma {:induction false} FixedResetRestores<K, V>(initialValue: Option<seq<(K, V)>>, actions: seq<Action<K, V>>)
    ensures RunFixed(Init(initialValue), actions).initialMap == InitialMap(initialValue)
    ensures Reset(RunFixed(Init(initialValue), actions)).current == InitialMap(initialValue)
  {
    RunFixedKeepsInitial(Init(initialValue), actions);
  }

  lemma {:induction false} RunFixedKeepsInitial<K, V>(h: MapHook<K, V>, actions: seq<Action<K, V>>)
    ensures RunFixed(h, actions).initialMap == h.initialMap
    decreases |actions|
  {
    if actions != [] {
      var a := actions[0];
      var h' := match a
        case SetAction(k, v) => SetFixed(h, k, v)
        case RemoveAction(k) => RemoveFixed(h, k)
        case SetAllAction(entries) => SetAll(h, entries)
        case ResetAction => Reset(h);
      RunFixedKeepsInitial(h', actions[1..]);
    }
  }
}

=== FILE: ordered_sets.dfy ===
/** JavaScript's `Set` as the hooks use it: a collection without duplicates
    that remembers insertion order, so `Array.from(set)` is a sequence of
    distinct elements in the order they were first added. */
module OrderedSets {

  /** No element occurs twice. */
  predicate NoDup<T(==)>(s: seq<T>) {
    forall i, j :: 0 <= i < j < |s| ==> s[i] != s[j]
  }

  /** `set.add(x)`: a new element goes to the end; a present one stays put. */
  function Add<T(==)>(s: seq<T>, x: T): (r: seq<T>)
    requires NoDup(s)
    ensures NoDup(r)
    ensures x in r
    ensures x in s ==> r == s
    ensures x !in s ==> r == s + [x]
  {
    if x in s then s else s + [x]
  }

  /** `set.delete(x)`: everything but `x`, in the same order. */
  function Delete<T(==)>(s: seq<T>, x: T): (r: seq<T>)
    ensures multiset(r) == multiset(s)[x := 0]
    ensures NoDup(s) ==> NoDup(r)
    ensures x !in s ==> r == s
  {
    if s == [] then []
    else
      var rest := Delete(s[1..], x);
      var r := if s[0] == x then rest else [s[0]] + rest;
      assert s == [s[0]] + s[1..];
      assert multiset(r) == multiset(s)[x := 0];
      if NoDup(s) then NoDupOfSubMultiset(s, r); r else r
  }

  /** `new Set(s)`: the distinct elements of `s`, in order of first occurrence. */
  function FromSeq<T(==)>(s: seq<T>): (r: seq<T>)
    ensures NoDup(r)
    ensures forall i :: 0 <= i < |s| ==> s[i] in r
    ensures forall i :: 0 <= i < |r| ==> r[i] in s
    decreases |s|
  {
    if s == [] then []
    else
      var init := s[..|s| - 1];
      var prev := FromSeq(init);
      var r := Add(prev, s[|s| - 1]);
      assert forall i :: 0 <= i < |s| - 1 ==> s[i] == init[i];
      assert forall y :: y in r ==> y in prev || y == s[|s| - 1];
      r
  }

  /** Inserting `xs` one after another, as a `forEach(o => set.add(o))` does. */
  function AddAll<T(==)>(s: seq<T>, xs: seq<T>): (r: seq<T>)
    requires NoDup(s)
    ensures NoDup(r)
    ensures |s| <= |r| && r[..|s|] == s
    decreases |xs|
  {
    if xs == [] then s
    else
      var s' := Add(s, xs[0]);
      var r := AddAll(s', xs[1..]);
      assert r[..|s|] == r[..|s'|][..|s|];
      r
  }

  /** After `AddAll` the members are those of `s` and of `xs`. */
  lemma {:induction false} AddAllMembers<T>(s: seq<T>, xs: seq<T>, y: T)
    requires NoDup(s)
    ensures y in AddAll(s, xs) <==> y in s || y in xs
    decreases |xs|
  {
    if xs != [] {
      var s' := Add(s, xs[0]);
      assert AddAll(s, xs) == AddAll(s', xs[1..]);
      AddAllMembers(s', xs[1..], y);
      assert y in s' <==> y in s || y == xs[0];
      assert y in xs <==> y == xs[0] || y in xs[1..] by {
        assert xs == [xs[0]] + xs[1..];
      }
    }
  }

  /** Deleting `xs` one after another, as a `forEach(o => set.delete(o))` does. */
  function DeleteAll<T(==)>(s: seq<T>, xs: seq<T>): (r: seq<T>)
    requires NoDup(s)
    ensures NoDup(r)
    ensures forall i :: 0 <= i < |r| ==> r[i] in s && r[i] !in xs
    ensures forall i :: 0 <= i < |s| && s[i] !in xs ==> s[i] in r
    decreases |xs|
  {
    if xs == [] then s
    else
      var s' := Delete(s, xs[0]);
      var r := DeleteAll(s', xs[1..]);
      assert forall i :: 0 <= i < |r| ==> r[i] in s && r[i] !in xs by {
        forall i | 0 <= i < |r| ensures r[i] in s && r[i] !in xs {
          assert r[i] in multiset(s');
          assert r[i] != xs[0];
        }
      }
      assert forall i :: 0 <= i < |s| && s[i] !in xs ==> s[i] in r by {
        forall i | 0 <= i < |s| && s[i] !in xs ensures s[i] in r {
          assert s[i] in multiset(s');
          var k :| 0 <= k < |s'| && s'[k] == s[i];
          assert s'[k] !in xs[1..];
        }
      }
      r
  }

  /** The members `Delete` keeps: all but `x`. */
  lemma DeleteMembers<T>(s: seq<T>, x: T)
    ensures forall i :: 0 <= i < |Delete(s, x)| ==> Delete(s, x)[i] != x && Delete(s, x)[i] in s
    ensures forall i :: 0 <= i < |s| && s[i] != x ==> s[i] in Delete(s, x)
  {
    var r := Delete(s, x);
    forall i | 0 <= i < |r| ensures r[i] != x && r[i] in s {
      assert r[i] in multiset(r);
    }
    forall i | 0 <= i < |s| && s[i] != x ensures s[i] in r {
      assert s[i] in multiset(s);
      assert s[i] in multiset(r);
    }
  }

  /** A sequence that already has no duplicates is its own `Set`. */
  lemma {:induction false} FromSeqOfNoDup<T>(s: seq<T>)
    requires NoDup(s)
    ensures FromSeq(s) == s
    decreases |s|
  {
    if s != [] {
      var init := s[..|s| - 1];
      var last := s[|s| - 1];
      assert FromSeq(s) == Add(FromSeq(init), last);
      assert NoDup(init) by {
        forall i, j | 0 <= i < j < |init| ensures init[i] != init[j] {
          assert init[i] == s[i] && init[j] == s[j];
        }
      }
      FromSeqOfNoDup(init);
      assert last !in init by {
        forall i | 0 <= i < |init| ensures init[i] != last {
          assert init[i] == s[i];
        }
      }
      assert init + [last] == s;
    }
  }

  /** No duplicates means every element is counted at most once. */
  lemma {:induction false} NoDupCounts<T>(s: seq<T>)
    ensures NoDup(s) <==> forall x :: multiset(s)[x] <= 1
    decreases |s|
  {
    if NoDup(s) {
      if s != [] {
        var t := s[1..];
        assert NoDup(t) by {
          forall a, b | 0 <= a < b < |t| ensures t[a] != t[b] {
            assert t[a] == s[a + 1] && t[b] == s[b + 1];
          }
        }
        NoDupCounts(t);
        assert s[0] !in t by {
          forall a | 0 <= a < |t| ensures t[a] != s[0] {
            assert t[a] == s[a + 1];
          }
        }
        assert multiset(s) == multiset{s[0]} + multiset(t) by {
          assert s == [s[0]] + t;
        }
      }
    } else {
      var i, j :| 0 <= i < j < |s| && s[i] == s[j];
      var v := s[i];
      assert multiset(s)[v] == multiset(s[..j])[v] + 1 + multiset(s[j + 1..])[v] by {
        assert s == s[..j] + [s[j]] + s[j + 1..];
      }
      assert v in multiset(s[..j]) by {
        assert s[..j][i] == v;
      }
    }
  }

  /** Two duplicate-free sequences with the same members hold the same
      elements the same number of times. */
  lemma NoDupSameMembers<T>(a: seq<T>, b: seq<T>)
    requires NoDup(a) && NoDup(b)
    requires forall x :: x in a <==> x in b
    ensures multiset(a) == multiset(b)
  {
    NoDupCounts(a);
    NoDupCounts(b);
    forall x ensures multiset(a)[x] == multiset(b)[x] {
      assert x in a <==> x in multiset(a);
      assert x in b <==> x in multiset(b);
    }
  }

  /** Taking elements away keeps a sequence free of duplicates. */
  lemma NoDupOfSubMultiset<T>(s: seq<T>, r: seq<T>)
    requires NoDup(s) && multiset(r) <= multiset(s)
    ensures NoDup(r)
  {
    NoDupCounts(s);
    NoDupCounts(r);
  }

  /** Adding an element that is not there keeps a sequence free of duplicates. */
  lemma NoDupOfFreshAddition<T>(s: seq<T>, r: seq<T>, x: T)
    requires NoDup(s) && x !in s && multiset(r) == multiset(s) + multiset{x}
    ensures NoDup(r)
  {
    NoDupCounts(s);
    NoDupCounts(r);
  }
}

=== FILE: responsive.dfy ===
/** `useResponsive` and `configResponsive`: module-level breakpoint flags.

    The module keeps a breakpoint config (name to minimum width) and an
    `info` object (name to flag), undefined until the first `init`. `init`
    creates `info` and installs the one resize listener, so a listener exists
    exactly when `info` is set. `calculate` computes every config key's flag
    `width >= threshold` and replaces `info` by the new flags only if one of
    them differs from `info`; the resize listener notifies subscribers only
    when `info` was replaced. The window width is a parameter. */
module Responsive {
  import opened Wrappers

  type Config = map<string, int>
  type Info = map<string, bool>

  datatype Global = Global(config: Config, info: Option<Info>)

  /** The default config, Bootstrap's breakpoints. */
  const DefaultConfig: Config := map["xs" := 0, "sm" := 576, "md" := 768, "lg" := 992, "xl" := 1200]

  /** The module's state when it is loaded. */
  const Loaded: Global := Global(DefaultConfig, None)

  /** `info` holds every config key's flag at `width`. */
  predicate Matches(config: Config, info: Info, width: int) {
    forall k :: k in config ==> k in info && info[k] == (width >= config[k])
  }

  /** Some config key's flag at `width` differs from `info`; a key missing
      from `info` reads as `undefined`, which differs from every flag. */
  predicate Differs(config: Config, info: Info, width: int) {
    exists k :: k in config && (k !in info || info[k] != (width >= config[k]))
  }

  /** `calculate()`: the new `info` and whether it was replaced. */
  function Calculate(config: Config, info: Info, width: int): (r: (Info, bool))
    ensures Matches(config, r.0, width)
    ensures r.1 <==> Differs(config, info, width)
    ensures r.1 ==> r.0.Keys == config.Keys
    ensures !r.1 ==> r.0 == info
  {
    if Differs(config, info, width) then (map k | k in config :: width >= config[k], true)
    else (info, false)
  }

  /** `calculate()` as the source runs it: a loop over `Object.keys(config)`
      building `newInfo` and raising `shouldUpdate` at the first difference. */
  method CalculateLoop(config: Config, keys: seq<string>, info: Info, width: int) returns (newInfo: Info, shouldUpdate: bool)
    requires forall k :: k in config <==> k in keys
    ensures (newInfo, shouldUpdate) == Calculate(config, info, width)
  {
    var built: Info := map[];
    shouldUpdate := false;
    var i := 0;
    while i < |keys|
      invariant 0 <= i <= |keys|
      invariant forall k :: k in built <==> k in keys[..i]
      invariant forall k :: k in built ==> built[k] == (width >= config[k])
      invariant shouldUpdate <==> exists j :: 0 <= j < i && (keys[j] !in info || info[keys[j]] != (width >= config[keys[j]]))
    {
      var key := keys[i];
      built := built[key := width >= config[key]];
      if key !in info || built[key] != info[key] {
        shouldUpdate := true;
      }
      i := i + 1;
    }
    assert keys[..i] == keys;
    if shouldUpdate {
      var j :| 0 <= j < |keys| && (keys[j] !in info || info[keys[j]] != (width >= config[keys[j]]));
      assert keys[j] in config;
      assert built == map k | k in config :: width >= config[k];
      newInfo := built;
    } else {
      newInfo := info;
    }
  }

  /** `init()`: the first call creates `info` and computes it from empty;
      later calls return at once. */
  function Init(g: Global, width: int): (r: Global)
    ensures r.config == g.config && r.info.Some?
    ensures g.info.Some? ==> r == g
    ensures g.info.None? ==> Matches(g.config, r.info.value, width)
  {
    if g.info.Some? then g
    else Global(g.config, Some(Calculate(g.config, map[], width).0))
  }

  /** The resize listener: recalculate, and notify subscribers iff `info`
      was replaced. Without `info` there is no listener yet. */
  function Resize(g: Global, width: int): (r: (Global, bool))
    ensures r.0.config == g.config
    ensures g.info.None? ==> r == (g, false)
    ensures g.info.Some? ==> r.0.info.Some? && Matches(g.config, r.0.info.value, width)
    ensures r.1 <==> r.0.info != g.info
  {
    if g.info.None? then (g, false)
    else
      var (info, updated) := Calculate(g.config, g.info.value, width);
      (Global(g.config, Some(info)), updated)
  }

  /** `configResponsive(config)`: replace the config, and recalculate only
      if `info` exists. */
  function ConfigResponsive(g: Global, config: Config, width: int): (r: Global)
    ensures r.config == config
    ensures g.info.None? ==> r.info.None?
    ensures g.info.Some? ==> r.info.Some? && Matches(config, r.info.value, width)
  {
    if g.info.None? then Global(config, None)
    else Global(config, Some(Calculate(config, g.info.value, width).0))
  }

  /** `useResponsive()` on mount: `init()`, then the current `info`. */
  function UseResponsive(g: Global, width: int): (r: (Global, Info))
    ensures r.0 == Init(g, width) && Some(r.1) == r.0.info
  {
    var g' := Init(g, width);
    (g', g'.info.value)
  }
}

=== FILE: responsive_lemmas.dfy ===
/** Properties of the breakpoint flags and of change detection. */
module ResponsiveLemmas {
  import opened Wrappers
  import opened Responsive

  /** `info` is replaced exactly when it does not already hold the flags. */
  lemma DiffersIffStale(config: Config, info: Info, width: int)
    ensures Differs(config, info, width) <==> !Matches(config, info, width)
  {
  }

  /** A second `calculate` at the same width replaces nothing. */
  lemma CalculateIdempotent(config: Config, info: Info, width: int)
    ensures var r := Calculate(config, info, width);
      Calculate(config, r.0, width) == (r.0, false)
  {
  }

  /** `init` runs once: a second call changes nothing, whatever the width. */
  lemma InitOnce(g: Global, w1: int, w2: int)
    ensures Init(Init(g, w1), w2) == Init(g, w1)
  {
  }

  /** Once the flags were computed at a width, a resize at that width
      notifies nobody: right after the first `init`, and after any resize. */
  lemma ResizeAtSameWidthIsSilent(g: Global, width: int)
    ensures g.info.None? ==> !Resize(Init(g, width), width).1
    ensures !Resize(Resize(g, width).0, width).1
  {
    if g.info.None? {
      var h := Init(g, width);
      assert Matches(h.config, h.info.value, width);
    }
  }

  /** With the default breakpoints the flags are monotone: a larger
      breakpoint's flag implies every smaller one's. */
  lemma DefaultFlagsMonotone(info: Info, width: int, a: string, b: string)
    requires Matches(DefaultConfig, info, width)
    requires a in DefaultConfig && b in DefaultConfig && DefaultConfig[a] <= DefaultConfig[b]
    ensures info[b] ==> info[a]
  {
  }

  /** A window 800 wide is `xs`, `sm` and `md`, not `lg` or `xl`. */
  lemma DefaultAt800()
    ensures Init(Loaded, 800).info == Some(map["xs" := true, "sm" := true, "md" := true, "lg" := false, "xl" := false])
  {
    var m := map["xs" := true, "sm" := true, "md" := true, "lg" := false, "xl" := false];
    var empty: Info := map[];
    assert Differs(DefaultConfig, empty, 800) by {
      assert "xs" in DefaultConfig && "xs" !in empty;
    }
    var f := map k | k in DefaultConfig :: 800 >= DefaultConfig[k];
    assert DefaultConfig.Keys == m.Keys;
    assert f.Keys == m.Keys;
    assert f == m by {
      forall k | k in f ensures f[k] == m[k] {
        assert k == "xs" || k == "sm" || k == "md" || k == "lg" || k == "xl";
      }
    }
  }

  /** `configResponsive` with fewer keys whose flags already agree keeps the
      old `info` object, keys outside the new config included; one differing
      flag replaces it by exactly the new config's keys. */
  lemma ConfigKeepsOrDropsStaleKeys()
    ensures var g := Init(Loaded, 800);
      "xl" in ConfigResponsive(g, map["sm" := 576], 800).info.value &&
      ConfigResponsive(g, map["sm" := 900], 800).info.value == map["sm" := false]
  {
    DefaultAt800();
    var g := Init(Loaded, 800);
    assert Differs(map["sm" := 900], g.info.value, 800) by {
      assert "sm" in map["sm" := 900];
    }
    assert (map k | k in map["sm" := 900] :: 800 >= map["sm" := 900][k]) == map["sm" := false];
  }

  /** A config set before the first `useResponsive` is the one `init` uses. */
  lemma ConfigBeforeInit(config: Config, width: int)
    ensures var g := Init(ConfigResponsive(Loaded, config, width), width);
      g.config == config && Matches(config, g.info.value, width)
  {
  }
}

=== FILE: selections.dfy ===
/** `useSelections(items, defaultSelected)`: checkbox selection over a list
    of items. The state is the `selected` array; each action builds
    `new Set(selected)`, adds or deletes, and stores `Array.from` of the set
    as the new `selected`. Item identity is Dafny equality, standing for
    JavaScript's SameValueZero. */
module Selections {
  import opened Wrappers
  import opened OrderedSets

  datatype Selection<T> = Selection(items: seq<T>, selected: seq<T>)

  /** The hook's state before any action; `defaultSelected` defaults to `[]`. */
  function Init<T>(items: seq<T>, defaultSelected: Option<seq<T>>): (s: Selection<T>)
    ensures s.items == items
    ensures defaultSelected.None? ==> s.selected == []
    ensures defaultSelected.Some? ==> s.selected == defaultSelected.value
  {
    Selection(items, defaultSelected.GetOr([]))
  }

  /** `new Set(selected)`. */
  function SelectedSet<T(==)>(s: Selection<T>): (r: seq<T>)
    ensures NoDup(r)
  {
    FromSeq(s.selected)
  }

  /** `isSelected(x)`. */
  predicate IsSelected<T(==)>(s: Selection<T>, x: T) {
    x in SelectedSet(s)
  }

  /** `select(x)`: `x` is added at the end of the selection unless it is
      already there; the earlier selection keeps its order. */
  function Select<T(==)>(s: Selection<T>, x: T): (r: Selection<T>)
    ensures r.items == s.items
    ensures NoDup(r.selected) && x in r.selected
    ensures |SelectedSet(s)| <= |r.selected| && r.selected[..|SelectedSet(s)|] == SelectedSet(s)
  {
    Selection(s.items, Add(SelectedSet(s), x))
  }

  /** `unSelect(x)`. */
  function UnSelect<T(==)>(s: Selection<T>, x: T): (r: Selection<T>)
    ensures r.items == s.items
    ensures NoDup(r.selected) && x !in r.selected
  {
    var r := Delete(SelectedSet(s), x);
    assert x !in multiset(r);
    Selection(s.items, r)
  }

  /** `toggle(x)`. */
  function Toggle<T(==)>(s: Selection<T>, x: T): (r: Selection<T>)
    ensures r.items == s.items
    ensures IsSelected(s, x) ==> r == UnSelect(s, x)
    ensures !IsSelected(s, x) ==> r == Select(s, x)
  {
    if IsSelected(s, x) then UnSelect(s, x) else Select(s, x)
  }

  /** `selectAll()`: every item is added, in item order. */
  function SelectAll<T(==)>(s: Selection<T>): (r: Selection<T>)
    ensures r.items == s.items && NoDup(r.selected)
    ensures forall i :: 0 <= i < |s.items| ==> s.items[i] in r.selected
  {
    var r := Selection(s.items, AddAll(SelectedSet(s), s.items));
    assert forall i :: 0 <= i < |s.items| ==> s.items[i] in r.selected by {
      forall i | 0 <= i < |s.items| ensures s.items[i] in r.selected {
        AddAllMembers(SelectedSet(s), s.items, s.items[i]);
      }
    }
    r
  }

  /** `unSelectAll()`: every item is deleted. */
  function UnSelectAll<T(==)>(s: Selection<T>): (r: Selection<T>)
    ensures r.items == s.items && NoDup(r.selected)
    ensures forall i :: 0 <= i < |s.items| ==> s.items[i] !in r.selected
  {
    Selection(s.items, DeleteAll(SelectedSet(s), s.items))
  }

  /** `noneSelected`: no item is selected. */
  predicate NoneSelected<T(==)>(s: Selection<T>) {
    forall i :: 0 <= i < |s.items| ==> !IsSelected(s, s.items[i])
  }

  /** `allSelected`: every item is selected, and not vacuously. */
  predicate AllSelected<T(==)>(s: Selection<T>) {
    (forall i :: 0 <= i < |s.items| ==> IsSelected(s, s.items[i])) && !NoneSelected(s)
  }

  /** `partiallySelected`. */
  predicate PartiallySelected<T(==)>(s: Selection<T>) {
    !NoneSelected(s) && !AllSelected(s)
  }

  /** `toggleAll()`. */
  function ToggleAll<T(==)>(s: Selection<T>): (r: Selection<T>)
    ensures AllSelected(s) ==> r == UnSelectAll(s)
    ensures !AllSelected(s) ==> r == SelectAll(s)
  {
    if AllSelected(s) then UnSelectAll(s) else SelectAll(s)
  }

  /** `setSelected(selected)`: the raw setter the hook also returns. */
  function SetSelected<T>(s: Selection<T>, selected: seq<T>): (r: Selection<T>)
    ensures r.items == s.items && r.selected == selected
  {
    Selection(s.items, selected)
  }
}

=== FILE: selections_lemmas.dfy ===
/** What the selection actions do to `isSelected`, and the none/all/partial
    classification. */
module SelectionsLemmas {
  import opened OrderedSets
  import opened Selections

  /** `isSelected` is membership in the stored array, duplicates or not. */
  lemma IsSelectedIff<T>(s: Selection<T>, x: T)
    ensures IsSelected(s, x) <==> x in s.selected
  {
    if x in s.selected {
      var i :| 0 <= i < |s.selected| && s.selected[i] == x;
    }
    if IsSelected(s, x) {
      var i :| 0 <= i < |SelectedSet(s)| && SelectedSet(s)[i] == x;
    }
  }

  /** After an action the stored array is its own `Set`. */
  lemma SelectedIsSet<T>(s: Selection<T>)
    requires NoDup(s.selected)
    ensures SelectedSet(s) == s.selected
  {
    FromSeqOfNoDup(s.selected);
  }

  /** `select(x)` selects `x` and keeps every other selection as it was. */
  lemma SelectEffect<T>(s: Selection<T>, x: T, y: T)
    ensures IsSelected(Select(s, x), y) <==> y == x || IsSelected(s, y)
  {
    IsSelectedIff(Select(s, x), y);
  }

  /** `unSelect(x)` unselects `x` and keeps every other selection. */
  lemma UnSelectEffect<T>(s: Selection<T>, x: T, y: T)
    ensures IsSelected(UnSelect(s, x), y) <==> y != x && IsSelected(s, y)
  {
    var r := UnSelect(s, x);
    IsSelectedIff(r, y);
    assert multiset(r.selected) == multiset(SelectedSet(s))[x := 0];
    assert y in r.selected <==> y in multiset(r.selected);
  }

  /** `toggle(x)` flips `x` and nothing else. */
  lemma ToggleEffect<T>(s: Selection<T>, x: T, y: T)
    ensures IsSelected(Toggle(s, x), x) <==> !IsSelected(s, x)
    ensures y != x ==> (IsSelected(Toggle(s, x), y) <==> IsSelected(s, y))
  {
    SelectEffect(s, x, x);
    UnSelectEffect(s, x, x);
    SelectEffect(s, x, y);
    UnSelectEffect(s, x, y);
  }

  /** `selectAll()` selects every item and keeps selections outside `items`. */
  lemma SelectAllEffect<T>(s: Selection<T>, y: T)
    ensures IsSelected(SelectAll(s), y) <==> y in s.items || IsSelected(s, y)
  {
    var r := SelectAll(s);
    IsSelectedIff(r, y);
    IsSelectedIff(s, y);
    OrderedSets.AddAllMembers(SelectedSet(s), s.items, y);
  }

  /** `unSelectAll()` unselects every item and keeps selections outside
      `items`. */
  lemma UnSelectAllEffect<T>(s: Selection<T>, y: T)
    ensures IsSelected(UnSelectAll(s), y) <==> y !in s.items && IsSelected(s, y)
  {
    var r := UnSelectAll(s);
    IsSelectedIff(r, y);
    if y in r.selected {
      var i :| 0 <= i < |r.selected| && r.selected[i] == y;
    }
    if y !in s.items && IsSelected(s, y) {
      var i :| 0 <= i < |SelectedSet(s)| && SelectedSet(s)[i] == y;
    }
  }

  /** Exactly one of `noneSelected`, `allSelected`, `partiallySelected`
      holds. */
  lemma ExactlyOneClass<T>(s: Selection<T>)
    ensures NoneSelected(s) || AllSelected(s) || PartiallySelected(s)
    ensures !(NoneSelected(s) && AllSelected(s))
    ensures !(NoneSelected(s) && PartiallySelected(s))
    ensures !(AllSelected(s) && PartiallySelected(s))
  {
  }

  /** With no items nothing is selected and the list is not all selected. */
  lemma EmptyItemsClass<T>(s: Selection<T>)
    requires s.items == []
    ensures NoneSelected(s) && !AllSelected(s) && !PartiallySelected(s)
  {
  }

  /** `allSelected` means every item is selected and there is one. */
  lemma AllSelectedIff<T>(s: Selection<T>)
    ensures AllSelected(s) <==> |s.items| > 0 && forall i :: 0 <= i < |s.items| ==> IsSelected(s, s.items[i])
  {
    if |s.items| > 0 && forall i :: 0 <= i < |s.items| ==> IsSelected(s, s.items[i]) {
      assert IsSelected(s, s.items[0]);
    }
  }

  /** `toggleAll()` on a non-empty list: all selected becomes none selected,
      anything else becomes all selected. */
  lemma ToggleAllEffect<T>(s: Selection<T>)
    requires |s.items| > 0
    ensures AllSelected(s) ==> NoneSelected(ToggleAll(s))
    ensures !AllSelected(s) ==> AllSelected(ToggleAll(s))
  {
    var r := ToggleAll(s);
    if AllSelected(s) {
      forall i | 0 <= i < |s.items| ensures !IsSelected(r, s.items[i]) {
        UnSelectAllEffect(s, s.items[i]);
      }
    } else {
      forall i | 0 <= i < |s.items| ensures IsSelected(r, s.items[i]) {
        SelectAllEffect(s, s.items[i]);
      }
      AllSelectedIff(r);
    }
  }
}

=== FILE: set_state.dfy ===
/** `useSet(initialValue)`: a `Set` held as state. Every action builds a new
    set from an array: `add` from the members followed by the key, `remove`
    from the members other than the key. The set is modelled as its members
    in insertion order. */
module SetState {
  import opened Wrappers
  import opened OrderedSets

  datatype SetHook<K> = SetHook(initialSet: seq<K>, members: seq<K>)

  /** Both sets are free of duplicates, as every `Set` is. */
  predicate Valid<K(==)>(h: SetHook<K>) {
    NoDup(h.initialSet) && NoDup(h.members)
  }

  /** `initialSet`: `new Set()` without an initial value, else
      `new Set(initialValue)`. */
  function InitialSet<K(==)>(initialValue: Option<seq<K>>): (r: seq<K>)
    ensures NoDup(r)
    ensures initialValue.None? ==> r == []
    ensures initialValue.Some? ==> forall i :: 0 <= i < |initialValue.value| ==> initialValue.value[i] in r
    ensures initialValue.Some? ==> forall i :: 0 <= i < |r| ==> r[i] in initialValue.value
  {
    if initialValue.None? then [] else FromSeq(initialValue.value)
  }

  function Init<K(==)>(initialValue: Option<seq<K>>): (h: SetHook<K>)
    ensures Valid(h) && h.members == h.initialSet == InitialSet(initialValue)
  {
    var s := InitialSet(initialValue);
    SetHook(s, s)
  }

  /** `has(key)`. */
  predicate Has<K(==)>(h: SetHook<K>, key: K) {
    key in h.members
  }

  /** `add(key)`: `new Set([...prevSet, key])`. */
  function Add<K(==)>(h: SetHook<K>, key: K): (r: SetHook<K>)
    ensures r.initialSet == h.initialSet
    ensures NoDup(r.members) && key in r.members
    ensures forall i :: 0 <= i < |h.members| ==> h.members[i] in r.members
    ensures forall i :: 0 <= i < |r.members| ==> r.members[i] in h.members || r.members[i] == key
  {
    var s := h.members + [key];
    assert forall i :: 0 <= i < |h.members| ==> h.members[i] == s[i];
    assert s[|s| - 1] == key;
    SetHook(h.initialSet, FromSeq(s))
  }

  /** `remove(key)`: `new Set(Array.from(prevSet).filter(i => i !== key))`. */
  function Remove<K(==)>(h: SetHook<K>, key: K): (r: SetHook<K>)
    ensures r.initialSet == h.initialSet
    ensures NoDup(r.members) && key !in r.members
    ensures forall i :: 0 <= i < |h.members| && h.members[i] != key ==> h.members[i] in r.members
    ensures forall i :: 0 <= i < |r.members| ==> r.members[i] in h.members
  {
    var s := Delete(h.members, key);
    DeleteMembers(h.members, key);
    SetHook(h.initialSet, FromSeq(s))
  }

  /** `reset()`: back to `initialSet`. */
  function Reset<K>(h: SetHook<K>): (r: SetHook<K>)
    ensures r.initialSet == h.initialSet && r.members == h.initialSet
  {
    h.(members := h.initialSet)
  }
}

=== FILE: set_state_lemmas.dfy ===
/** Membership after each `useSet` action. */
module SetStateLemmas {
  import opened Wrappers
  import OrderedSets
  import opened SetState

  /** `add(key)` makes `key` a member and keeps every other member. */
  lemma AddEffect<K>(h: SetHook<K>, key: K, y: K)
    ensures Has(Add(h, key), y) <==> y == key || Has(h, y)
  {
    var r := Add(h, key);
    if y in r.members {
      var i :| 0 <= i < |r.members| && r.members[i] == y;
    }
    if y in h.members {
      var i :| 0 <= i < |h.members| && h.members[i] == y;
    }
  }

  /** Adding a member changes nothing, order included; adding a new key
      appends it. */
  lemma AddOrder<K>(h: SetHook<K>, key: K)
    requires Valid(h)
    ensures key in h.members ==> Add(h, key) == h
    ensures key !in h.members ==> Add(h, key).members == h.members + [key]
  {
    var s := h.members + [key];
    assert s[..|s| - 1] == h.members;
    OrderedSets.FromSeqOfNoDup(h.members);
    assert OrderedSets.FromSeq(s) == OrderedSets.Add(h.members, key);
  }

  /** `remove(key)` makes `key` absent and keeps every other member. */
  lemma RemoveEffect<K>(h: SetHook<K>, key: K, y: K)
    ensures Has(Remove(h, key), y) <==> y != key && Has(h, y)
  {
    var r := Remove(h, key);
    if y in r.members {
      var i :| 0 <= i < |r.members| && r.members[i] == y;
    }
    if y in h.members {
      var i :| 0 <= i < |h.members| && h.members[i] == y;
    }
  }

  /** Removing an absent key changes nothing. */
  lemma RemoveAbsent<K>(h: SetHook<K>, key: K)
    requires Valid(h) && key !in h.members
    ensures Remove(h, key) == h
  {
    OrderedSets.FromSeqOfNoDup(h.members);
  }

  /** Every action keeps both sets free of duplicates. */
  lemma ActionsKeepValid<K>(h: SetHook<K>, key: K)
    requires Valid(h)
    ensures Valid(Add(h, key)) && Valid(Remove(h, key)) && Valid(Reset(h))
  {
  }

  /** `reset()` after one `add` or `remove` gives the initial members back, and with
      no initial value that is the empty set. */
  lemma ResetRestores<K>(initialValue: Option<seq<K>>, key: K)
    ensures Reset(Add(Init(initialValue), key)) == Init(initialValue)
    ensures Reset(Remove(Init(initialValue), key)) == Init(initialValue)
    ensures initialValue.None? ==> Reset(Add(Init(initialValue), key)).members == []
  {
  }
}

=== FILE: sort_form.dfy ===
/** `sortForm(result)` of `useDynamicList`: the entries of a form result,
    ordered by `getIndex` of their position in `result`, without the falsy
    ones.

    The source pairs every entry with its position, sorts the pairs with the
    comparator `getIndex(a.key) - getIndex(b.key)`, drops falsy entries and
    unwraps. `Array.prototype.sort` is stable and the pairs start in position
    order, so the sorted order is the strict total order "smaller `getIndex`
    first, then smaller position" (`Before`); a sequence sorted by a strict
    total order is determined by its elements (`SortedUnique`), so any stable
    sorting algorithm yields the insertion sort below. JavaScript
    truthiness is the parameter `truthy`. */
module SortForm {
  import opened JsArrays
  import opened OrderedSets
  import opened DynamicList

  /** Position `p` sorts before position `q`. */
  predicate Before(rank: int -> int, p: int, q: int) {
    rank(p) < rank(q) || (rank(p) == rank(q) && p < q)
  }

  predicate SortedBy(rank: int -> int, s: seq<int>) {
    forall i, j :: 0 <= i < j < |s| ==> Before(rank, s[i], s[j])
  }

  /** `x` sorts before every element of `s`. */
  predicate Precedes(rank: int -> int, x: int, s: seq<int>) {
    forall i :: 0 <= i < |s| ==> Before(rank, x, s[i])
  }

  lemma SortedCons(rank: int -> int, x: int, s: seq<int>)
    requires SortedBy(rank, s) && Precedes(rank, x, s)
    ensures SortedBy(rank, [x] + s)
  {
    var r := [x] + s;
    forall i, j | 0 <= i < j < |r| ensures Before(rank, r[i], r[j]) {
      if i > 0 { assert r[i] == s[i - 1] && r[j] == s[j - 1]; }
    }
  }

  lemma PrecedesOfMultiset(rank: int -> int, x: int, s: seq<int>, t: seq<int>, y: int)
    requires Precedes(rank, x, s) && Before(rank, x, y)
    requires multiset(t) == multiset(s) + multiset{y}
    ensures Precedes(rank, x, t)
  {
    forall i | 0 <= i < |t| ensures Before(rank, x, t[i]) {
      assert t[i] in multiset(t);
      if t[i] != y {
        assert t[i] in multiset(s);
      }
    }
  }

  lemma PrecedesOfSub(rank: int -> int, x: int, s: seq<int>, t: seq<int>)
    requires Precedes(rank, x, s)
    requires multiset(t) <= multiset(s)
    ensures Precedes(rank, x, t)
  {
    forall i | 0 <= i < |t| ensures Before(rank, x, t[i]) {
      assert t[i] in multiset(t);
      assert t[i] in multiset(s);
    }
  }

  lemma SortedHead(rank: int -> int, s: seq<int>)
    requires SortedBy(rank, s) && s != []
    ensures Precedes(rank, s[0], s[1..]) && SortedBy(rank, s[1..])
  {
    forall i | 0 <= i < |s[1..]| ensures Before(rank, s[0], s[1..][i]) {
      assert s[1..][i] == s[i + 1];
    }
  }

  /** Inserts `p` in front of the first element it sorts before. */
  function InsertSorted(rank: int -> int, s: seq<int>, p: int): (r: seq<int>)
    requires SortedBy(rank, s) && p !in s
    ensures SortedBy(rank, r)
    ensures multiset(r) == multiset(s) + multiset{p}
  {
    if s == [] then [p]
    else if Before(rank, p, s[0]) then
      SortedHead(rank, s);
      assert Precedes(rank, p, s);
      SortedCons(rank, p, s);
      [p] + s
    else
      assert s == [s[0]] + s[1..];
      SortedHead(rank, s);
      var rest := InsertSorted(rank, s[1..], p);
      assert Before(rank, s[0], p);
      PrecedesOfMultiset(rank, s[0], s[1..], rest, p);
      SortedCons(rank, s[0], rest);
      [s[0]] + rest
  }

  /** The positions `0..n-1` in sorted order. */
  function SortPositions(rank: int -> int, n: nat): (r: seq<int>)
    ensures SortedBy(rank, r)
    ensures multiset(r) == multiset(Range(0, n))
  {
    if n == 0 then []
    else
      var s := SortPositions(rank, n - 1);
      assert Range(0, n) == Range(0, n - 1) + [n - 1];
      assert n - 1 !in multiset(Range(0, n - 1));
      InsertSorted(rank, s, n - 1)
  }

  /** The elements of `s` that `keep` accepts, in the same order. */
  function Filter(s: seq<int>, keep: int -> bool): (r: seq<int>)
    ensures forall i :: 0 <= i < |r| ==> keep(r[i])
  {
    if s == [] then []
    else
      var rest := Filter(s[1..], keep);
      if keep(s[0]) then [s[0]] + rest else rest
  }

  /** `Filter` takes no element more often than it occurs. */
  lemma {:induction false} FilterSubMultiset(s: seq<int>, keep: int -> bool)
    ensures multiset(Filter(s, keep)) <= multiset(s)
  {
    if s != [] {
      FilterSubMultiset(s[1..], keep);
      assert s == [s[0]] + s[1..];
    }
  }

  /** `Filter` drops only what `keep` rejects. */
  lemma {:induction false} FilterKeeps(s: seq<int>, keep: int -> bool, x: int)
    requires x in s && keep(x)
    ensures x in Filter(s, keep)
  {
    if x != s[0] {
      var k :| 0 <= k < |s| && s[k] == x;
      assert s[1..][k - 1] == x;
      FilterKeeps(s[1..], keep, x);
    }
  }

  /** `Filter` keeps a sorted sequence sorted. */
  lemma {:induction false} FilterSorted(rank: int -> int, s: seq<int>, keep: int -> bool)
    requires SortedBy(rank, s)
    ensures SortedBy(rank, Filter(s, keep))
  {
    if s != [] {
      var rest := Filter(s[1..], keep);
      SortedHead(rank, s);
      FilterSorted(rank, s[1..], keep);
      if keep(s[0]) {
        FilterSubMultiset(s[1..], keep);
        PrecedesOfSub(rank, s[0], s[1..], rest);
        SortedCons(rank, s[0], rest);
      }
    }
  }

  /** Two sorted sequences with the same elements start alike. */
  lemma SortedSameHead(rank: int -> int, a: seq<int>, b: seq<int>)
    requires SortedBy(rank, a) && SortedBy(rank, b)
    requires multiset(a) == multiset(b) && a != []
    ensures b != [] && a[0] == b[0]
  {
    assert a[0] in multiset(b);
    assert b != [];
    assert b[0] in multiset(a);
    var i :| 0 <= i < |a| && a[i] == b[0];
    var j :| 0 <= j < |b| && b[j] == a[0];
  }

  /** Two sequences sorted by the same strict order with the same elements
      are equal: the sorted order does not depend on the sorting algorithm. */
  lemma {:induction false} SortedUnique(rank: int -> int, a: seq<int>, b: seq<int>)
    requires SortedBy(rank, a) && SortedBy(rank, b)
    requires multiset(a) == multiset(b)
    ensures a == b
    decreases |a|
  {
    if a == [] {
      assert |multiset(b)| == 0;
    } else {
      SortedSameHead(rank, a, b);
      assert a == [a[0]] + a[1..] && b == [b[0]] + b[1..];
      assert multiset(a[1..]) == multiset(b[1..]) by {
        assert multiset(a[1..]) == multiset(a) - multiset{a[0]};
        assert multiset(b[1..]) == multiset(b) - multiset{b[0]};
      }
      SortedHead(rank, a);
      SortedHead(rank, b);
      SortedUnique(rank, a[1..], b[1..]);
    }
  }

  lemma SortedNoDup(rank: int -> int, s: seq<int>)
    requires SortedBy(rank, s)
    ensures NoDup(s)
  {
  }

  lemma SortedCoversRange(rank: int -> int, s: seq<int>, n: nat)
    requires multiset(s) == multiset(Range(0, n))
    ensures forall p :: 0 <= p < n ==> p in s
  {
    forall p | 0 <= p < n ensures p in s {
      assert Range(0, n)[p] == p;
      assert p in multiset(Range(0, n));
    }
  }

  /** The sort key of a position: its `getIndex`. */
  function Rank<T>(d: DynamicList<T>): int -> int {
    p => GetIndex(d, p)
  }

  /** The entries `sortForm` keeps: positions of truthy entries. */
  function Kept<U>(result: seq<U>, truthy: U -> bool): int -> bool {
    p => 0 <= p < |result| && truthy(result[p])
  }

  /** The positions of `result` that `sortForm` keeps, in its order: every
      truthy entry's position exactly once, smaller `getIndex` first. */
  function SortFormPositions<T, U>(d: DynamicList<T>, result: seq<U>, truthy: U -> bool): (ps: seq<int>)
    ensures SortedBy(Rank(d), ps)
    ensures NoDup(ps)
    ensures forall i :: 0 <= i < |ps| ==> 0 <= ps[i] < |result| && truthy(result[ps[i]])
    ensures forall p :: 0 <= p < |result| && truthy(result[p]) ==> p in ps
  {
    var rank := Rank(d);
    var sorted := SortPositions(rank, |result|);
    var ps := Filter(sorted, Kept(result, truthy));
    FilterSorted(rank, sorted, Kept(result, truthy));
    assert forall p :: 0 <= p < |result| && truthy(result[p]) ==> p in ps by {
      forall p | 0 <= p < |result| && truthy(result[p]) ensures p in ps {
        SortedCoversRange(rank, sorted, |result|);
        assert Kept(result, truthy)(p);
        FilterKeeps(sorted, Kept(result, truthy), p);
      }
    }
    assert forall i :: 0 <= i < |ps| ==> 0 <= ps[i] < |result| && truthy(result[ps[i]]) by {
      forall i | 0 <= i < |ps| ensures 0 <= ps[i] < |result| && truthy(result[ps[i]]) {
        assert Kept(result, truthy)(ps[i]);
      }
    }
    SortedNoDup(rank, ps);
    ps
  }

  /** Any ordering of exactly the truthy positions that is sorted by
      `getIndex`, ties by position, is the one above: every stable sort of
      the source's pairs followed by its filter yields these positions. */
  lemma SortFormPositionsUnique<T, U>(d: DynamicList<T>, result: seq<U>, truthy: U -> bool, qs: seq<int>)
    requires SortedBy(Rank(d), qs)
    requires forall i :: 0 <= i < |qs| ==> 0 <= qs[i] < |result| && truthy(result[qs[i]])
    requires forall p :: 0 <= p < |result| && truthy(result[p]) ==> p in qs
    ensures qs == SortFormPositions(d, result, truthy)
  {
    var ps := SortFormPositions(d, result, truthy);
    SortedNoDup(Rank(d), qs);
    forall x ensures x in qs <==> x in ps {
      if x in qs {
        var i :| 0 <= i < |qs| && qs[i] == x;
      }
      if x in ps {
        var i :| 0 <= i < |ps| && ps[i] == x;
      }
    }
    NoDupSameMembers(qs, ps);
    SortedUnique(Rank(d), qs, ps);
  }

  /** `sortForm(result)`: the kept entries in the order above. */
  function SortFormOf<T, U>(d: DynamicList<T>, result: seq<U>, truthy: U -> bool): (r: seq<U>)
    ensures forall i :: 0 <= i < |r| ==> truthy(r[i])
    ensures var ps := SortFormPositions(d, result, truthy);
      |r| == |ps| && forall i :: 0 <= i < |r| ==> r[i] == result[ps[i]]
  {
    var ps := SortFormPositions(d, result, truthy);
    seq(|ps|, i requires 0 <= i < |ps| => result[ps[i]])
  }
}

=== FILE: virtual_list.dfy ===
/** The windowing engine of `useVirtualList`: from the list length, the item
    height configuration, the container's `clientHeight` and `scrollTop` and
    the overscan, it computes the window `[start, end)` of items to render,
    the height of the whole list, the distance from the top to an item, and
    the rendered slice with absolute indices.

    The React state cell holding the window becomes the `window` field of an
    explicit state; the DOM container becomes an optional `Container` record
    whose two measured numbers are inputs. */
module VirtualList {
  import opened Wrappers
  import opened JsArrays

  type Positive = n: nat | n > 0 witness 1

  /** `options.itemHeight`: one height for every item, or a height per index. */
  datatype ItemHeight = Fixed(h: Positive) | ByIndex(f: nat -> nat)

  /** Overscan used when the options do not give one. */
  const DefaultOverscan: int := 5

  /** The rendered window: items `start` up to, not including, `end`. */
  datatype Window = Window(start: nat, end: int)

  /** The attached scroll container, as far as the engine reads it. */
  datatype Container = Container(scrollTop: int, clientHeight: nat)

  datatype VirtualList<T> = VirtualList(
    list: seq<T>,
    height: ItemHeight,
    overscan: int,
    window: Window,
    container: Option<Container>)

  /** One rendered item: the data and its index in the full list. */
  datatype Entry<T> = Entry(data: T, index: int)

  /** The state before any container is attached: window `{0, 10}`. */
  function Init<T>(list: seq<T>, height: ItemHeight, overscan: Option<int>): (s: VirtualList<T>)
    ensures s.window == Window(0, 10) && s.container.None?
    ensures s.overscan == overscan.GetOr(DefaultOverscan)
  {
    VirtualList(list, height, overscan.GetOr(DefaultOverscan), Window(0, 10), None)
  }

  // ---------------------------------------------------------------------
  // Sums of item heights and first-index-reaching-threshold scans

  /** Total height of the items with indices in `[a, b)`. */
  function Sum(f: nat -> nat, a: nat, b: nat): nat
    decreases b
  {
    if b <= a then 0 else Sum(f, a, b - 1) + f(b - 1)
  }

  /** The items `a..i` together are at least `t` high. */
  predicate Reached(f: nat -> nat, a: nat, i: nat, t: int) {
    Sum(f, a, i + 1) >= t
  }

  /** Continues the scan at index `i`, where `sum` is the height of `[a, i)`. */
  function ScanFrom(f: nat -> nat, a: nat, i: nat, n: nat, t: int, sum: nat): (r: Option<nat>)
    requires a <= i
    requires sum == Sum(f, a, i)
    requires forall j :: a <= j < i ==> !Reached(f, a, j, t)
    ensures r.Some? ==> i <= r.value < n && Reached(f, a, r.value, t)
    ensures r.Some? ==> forall j :: a <= j < r.value ==> !Reached(f, a, j, t)
    ensures r.None? ==> forall j :: a <= j < n ==> !Reached(f, a, j, t)
    decreases n - i
  {
    if i >= n then None
    else if sum + f(i) >= t then Some(i)
    else ScanFrom(f, a, i + 1, n, t, sum + f(i))
  }

  /** The first index `i` in `[a, n)` whose running sum from `a` reaches `t`. */
  function FirstReaching(f: nat -> nat, a: nat, n: nat, t: int): (r: Option<nat>)
    ensures r.Some? ==> a <= r.value < n && Reached(f, a, r.value, t)
    ensures r.Some? ==> forall j :: a <= j < r.value ==> !Reached(f, a, j, t)
    ensures r.None? ==> forall j :: a <= j < n ==> !Reached(f, a, j, t)
  {
    ScanFrom(f, a, a, n, t, 0)
  }

  /** The characterisation of `FirstReaching` pins its result down. */
  lemma FirstReachingIs(f: nat -> nat, a: nat, n: nat, t: int, i: nat)
    requires a <= i < n && Reached(f, a, i, t)
    requires forall j :: a <= j < i ==> !Reached(f, a, j, t)
    ensures FirstReaching(f, a, n, t) == Some(i)
  {
  }

  /** `ceil(c / h)` on naturals. */
  function CeilDiv(c: nat, h: Positive): (q: nat)
    ensures (q - 1) * h < c <= q * h
  {
    var q := (c + h - 1) / h;
    assert c + h - 1 == q * h + (c + h - 1) % h;
    assert (q - 1) * h == q * h - h;
    q
  }

  /** `Math.floor(x / h)` for a positive `h`. */
  function FloorDiv(x: int, h: Positive): (q: int)
    ensures q * h <= x < (q + 1) * h
  {
    var q := x / h;
    assert x == q * h + x % h;
    assert (q + 1) * h == q * h + h;
    q
  }

  // ---------------------------------------------------------------------
  // The two scans and the window

  /** `getOffset(scrollTop)`: one past the index of the item the container
      is scrolled into. */
  function Offset(n: nat, height: ItemHeight, scrollTop: int): (r: int)
    ensures height.Fixed? ==> (r - 1) * height.h <= scrollTop < r * height.h
    ensures height.ByIndex? ==> forall j :: 0 <= j < r - 1 ==> !Reached(height.f, 0, j, scrollTop)
    ensures height.ByIndex? ==>
      || (1 <= r <= n && Reached(height.f, 0, r - 1, scrollTop))
      || (r == 1 && forall j :: 0 <= j < n ==> !Reached(height.f, 0, j, scrollTop))
  {
    match height
    case Fixed(h) => FloorDiv(scrollTop, h) + 1
    case ByIndex(f) =>
      match FirstReaching(f, 0, n, scrollTop)
      case Some(i) => i + 1
      case None => 1
  }

  /** `getViewCapacity(clientHeight)`: how many items fill the container.
      With per-index heights the scan starts at the current window start and
      yields `i - start` for the first `i` at which the items `start..i` fill
      the container; when they never do, it yields `0 - start`. */
  function ViewCapacity(n: nat, height: ItemHeight, containerHeight: nat, start: nat): (r: int)
    ensures height.Fixed? ==> 0 <= r && (r - 1) * height.h < containerHeight <= r * height.h
    ensures height.ByIndex? ==>
      || (0 <= r && start + r < n && Reached(height.f, start, start + r, containerHeight)
          && forall j :: start <= j < start + r ==> !Reached(height.f, start, j, containerHeight))
      || (r + start == 0 && forall j :: start <= j < n ==> !Reached(height.f, start, j, containerHeight))
  {
    match height
    case Fixed(h) => CeilDiv(containerHeight, h)
    case ByIndex(f) =>
      match FirstReaching(f, start, n, containerHeight)
      case Some(i) => i - start
      case None => 0 - start
  }

  /** `calculateRange()`: recompute the window from the attached container;
      without a container nothing changes. Only the window is replaced. */
  function CalculateRange<T>(s: VirtualList<T>): (r: VirtualList<T>)
    ensures s.container.None? ==> r == s
    ensures r.list == s.list && r.height == s.height && r.overscan == s.overscan
    ensures r.container == s.container
    ensures s.container.Some? ==> r.window.end <= |s.list|
    ensures s.container.Some? ==>
      var n := |s.list|;
      var offset := Offset(n, s.height, s.container.value.scrollTop);
      var capacity := ViewCapacity(n, s.height, s.container.value.clientHeight, s.window.start);
      && r.window.start == (if offset - s.overscan < 0 then 0 else offset - s.overscan)
      && r.window.end == (if offset + capacity + s.overscan > n then n else offset + capacity + s.overscan)
  {
    match s.container
    case None => s
    case Some(c) =>
      var n := |s.list|;
      var offset := Offset(n, s.height, c.scrollTop);
      var capacity := ViewCapacity(n, s.height, c.clientHeight, s.window.start);
      var from := offset - s.overscan;
      var to := offset + capacity + s.overscan;
      s.(window := Window(if from < 0 then 0 else from, if to > n then n else to))
  }

  /** `totalHeight`: the height of the whole list. */
  function TotalHeight<T>(s: VirtualList<T>): int {
    match s.height
    case Fixed(h) => |s.list| * h
    case ByIndex(f) => Sum(f, 0, |s.list|)
  }

  /** `getDistanceTop(index)`: the height of the items before `index`; with
      per-index heights these are the items of `list.slice(0, index)`. */
  function DistanceTop<T>(s: VirtualList<T>, index: int): (r: int)
    ensures s.height.ByIndex? ==> r == Sum(s.height.f, 0, |Slice(s.list, 0, index)|)
  {
    match s.height
    case Fixed(h) => index * h
    case ByIndex(f) => Sum(f, 0, RelPos(index, |s.list|))
  }

  /** `scrollTo(index)`: with a container attached, scroll it to the top of
      item `index` and recompute the window. */
  function ScrollTo<T>(s: VirtualList<T>, index: int): (r: VirtualList<T>)
    ensures s.container.None? ==> r == s
    ensures s.container.Some? ==> r.container == Some(Container(DistanceTop(s, index), s.container.value.clientHeight))
    ensures s.container.Some? ==> r.window.end <= |s.list|
    ensures s.container.Some? ==>
      r == CalculateRange(s.(container := Some(Container(DistanceTop(s, index), s.container.value.clientHeight))))
  {
    match s.container
    case None => s
    case Some(c) => CalculateRange(s.(container := Some(c.(scrollTop := DistanceTop(s, index)))))
  }

  /** The returned `list`: the window's slice, each item with its index. */
  function Rendered<T>(s: VirtualList<T>): (r: seq<Entry<T>>)
    ensures forall i :: 0 <= i < |r| ==> 0 <= r[i].index < |s.list| && r[i].data == s.list[r[i].index]
    ensures forall i :: 0 <= i < |r| ==> r[i].index == s.window.start + i
    ensures s.window.start <= RelPos(s.window.end, |s.list|) ==> |r| == RelPos(s.window.end, |s.list|) - s.window.start
    ensures s.window.start > RelPos(s.window.end, |s.list|) ==> r == []
  {
    var slice := Slice(s.list, s.window.start, s.window.end);
    seq(|slice|, i requires 0 <= i < |slice| => Entry(slice[i], i + s.window.start))
  }

  // ---------------------------------------------------------------------
  // The loops of the source, proved equal to the scans above

  /** The per-index branch of `getOffset`, as the source's `for` loop. */
  method OffsetLoop<T>(list: seq<T>, f: nat -> nat, scrollTop: int) returns (r: int)
    ensures r == Offset(|list|, ByIndex(f), scrollTop)
  {
    var sum := 0;
    var offset := 0;
    var i := 0;
    ghost var broke := false;
    while i < |list|
      invariant 0 <= i <= |list|
      invariant sum == Sum(f, 0, i)
      invariant forall j :: 0 <= j < i ==> !Reached(f, 0, j, scrollTop)
      invariant offset == 0 && !broke
    {
      sum := sum + f(i);
      if sum >= scrollTop {
        offset := i;
        FirstReachingIs(f, 0, |list|, scrollTop, i);
        broke := true;
        break;
      }
      i := i + 1;
    }
    if !broke {
      assert FirstReaching(f, 0, |list|, scrollTop).None?;
    }
    r := offset + 1;
  }

  /** The per-index branch of `getViewCapacity`, as the source's `for` loop. */
  method CapacityLoop<T>(list: seq<T>, f: nat -> nat, containerHeight: nat, start: nat) returns (r: int)
    ensures r == ViewCapacity(|list|, ByIndex(f), containerHeight, start)
  {
    var sum := 0;
    var capacity := 0;
    var i := start;
    ghost var broke := false;
    while i < |list|
      invariant start <= i
      invariant i <= |list| || i == start
      invariant sum == Sum(f, start, i)
      invariant forall j :: start <= j < i ==> !Reached(f, start, j, containerHeight)
      invariant capacity == 0 && !broke
    {
      sum := sum + f(i);
      if sum >= containerHeight {
        capacity := i;
        FirstReachingIs(f, start, |list|, containerHeight, i);
        broke := true;
        break;
      }
      i := i + 1;
    }
    if !broke {
      assert FirstReaching(f, start, |list|, containerHeight).None?;
    }
    r := capacity - start;
  }
}

=== FILE: virtual_list_lemmas.dfy ===
/** Properties of the `useVirtualList` windowing engine: sums, distances,
    agreement and disagreement of the two height modes, and what a window
    recomputation and a `scrollTo` guarantee. */
module VirtualListLemmas {
  import opened Wrappers
  import opened JsArrays
  import opened VirtualList

  // ---------------------------------------------------------------------
  // Arithmetic on heights

  lemma MulMono(a: int, b: int, h: nat)
    requires a <= b
    ensures a * h <= b * h
  {
    assert b * h - a * h == (b - a) * h;
  }

  /** A sum over `[a, c)` splits at any `b` in between. */
  lemma {:induction false} SumSplit(f: nat -> nat, a: nat, b: nat, c: nat)
    requires a <= b <= c
    ensures Sum(f, a, c) == Sum(f, a, b) + Sum(f, b, c)
    decreases c
  {
    if c > b {
      SumSplit(f, a, b, c - 1);
    }
  }

  /** Heights are non-negative, so a longer prefix is never lower. */
  lemma SumMonotone(f: nat -> nat, a: nat, b: nat, c: nat)
    requires b <= c
    ensures Sum(f, a, b) <= Sum(f, a, c)
  {
    if a <= b {
      SumSplit(f, a, b, c);
    } else if a <= c {
      SumSplit(f, a, a, c);
    }
  }

  /** With every item `h` high, `[a, b)` is `(b - a) * h` high. */
  lemma {:induction false} SumConst(f: nat -> nat, h: nat, a: nat, b: nat)
    requires forall i :: f(i) == h
    requires a <= b
    ensures Sum(f, a, b) == (b - a) * h
    decreases b
  {
    if b > a {
      SumConst(f, h, a, b - 1);
      assert (b - a) * h == (b - 1 - a) * h + h;
    }
  }

  // ---------------------------------------------------------------------
  // Distances and the total height

  /** The first item starts at 0 and the end of the list is `totalHeight` down. */
  lemma DistanceTopEnds<T>(s: VirtualList<T>)
    ensures DistanceTop(s, 0) == 0
    ensures DistanceTop(s, |s.list|) == TotalHeight(s)
  {
  }

  /** For indices from 0 on, the distance to the top never decreases. */
  lemma DistanceTopMonotone<T>(s: VirtualList<T>, i: int, j: int)
    requires 0 <= i <= j
    ensures DistanceTop(s, i) <= DistanceTop(s, j)
  {
    match s.height
    case Fixed(h) => MulMono(i, j, h);
    case ByIndex(f) => SumMonotone(f, 0, RelPos(i, |s.list|), RelPos(j, |s.list|));
  }

  /** A height function that is constantly `h` lays the list out exactly as
      the uniform height `h` does. */
  lemma ModesAgreeOnLayout<T>(list: seq<T>, h: Positive, f: nat -> nat, overscan: int, w: Window, c: Option<Container>, k: int)
    requires forall i :: f(i) == h
    requires 0 <= k <= |list|
    ensures TotalHeight(VirtualList(list, Fixed(h), overscan, w, c)) == TotalHeight(VirtualList(list, ByIndex(f), overscan, w, c))
    ensures DistanceTop(VirtualList(list, Fixed(h), overscan, w, c), k) == DistanceTop(VirtualList(list, ByIndex(f), overscan, w, c), k)
  {
    SumConst(f, h, 0, |list|);
    SumConst(f, h, 0, k);
  }

  /** The characterisation of `CeilDiv` pins its result down. */
  lemma CeilUnique(t: nat, h: Positive, q: int)
    requires (q - 1) * h < t <= q * h
    ensures q == CeilDiv(t, h)
  {
    var c := CeilDiv(t, h);
    if q < c { MulMono(q, c - 1, h); }
    if q > c { MulMono(c, q - 1, h); }
  }

  /** The characterisation of `FloorDiv` pins its result down. */
  lemma FloorUnique(t: int, h: Positive, p: int)
    requires p * h <= t < (p + 1) * h
    ensures p == FloorDiv(t, h)
  {
    var c := FloorDiv(t, h);
    if p < c { MulMono(p + 1, c, h); }
    if p > c { MulMono(c + 1, p, h); }
  }

  /** For a positive `t`, `floor(t / h) + 1 == ceil(t / h)` exactly when `h`
      does not divide `t`. */
  lemma FloorPlusOneIsCeil(t: nat, h: Positive)
    requires t > 0
    ensures FloorDiv(t, h) + 1 == CeilDiv(t, h) <==> t % h != 0
  {
    var k := t / h;
    assert t == k * h + t % h;
    assert (k + 1) * h == k * h + h;
    assert (k - 1) * h == k * h - h;
    FloorUnique(t, h, k);
    if t % h == 0 {
      CeilUnique(t, h, k);
    } else {
      CeilUnique(t, h, k + 1);
    }
  }

  /** With every item `h` high, the per-index scan stops at `ceil(t / h) - 1`. */
  lemma OffsetOfConstantHeights(n: nat, h: Positive, f: nat -> nat, t: int)
    requires forall i :: f(i) == h
    requires 0 < t <= n * h
    ensures Offset(n, ByIndex(f), t) == CeilDiv(t, h)
  {
    var q := CeilDiv(t, h);
    assert 1 <= q by {
      if q < 1 { MulMono(q, 0, h); }
    }
    assert q <= n by {
      if q > n { MulMono(n, q - 1, h); }
    }
    SumConst(f, h, 0, q);
    assert Reached(f, 0, q - 1, t);
    forall j | 0 <= j < q - 1
      ensures !Reached(f, 0, j, t)
    {
      SumConst(f, h, 0, j + 1);
      MulMono(j + 1, q - 1, h);
    }
    FirstReachingIs(f, 0, n, t, q - 1);
  }

  /** The two modes do not agree on the scroll offset, however: with a
      constant height function the offset is `ceil(scrollTop / h)`, with the
      uniform height it is `floor(scrollTop / h) + 1`, so they differ exactly
      when the container is scrolled to an item boundary. */
  lemma OffsetModesDisagreeOnBoundaries(n: nat, h: Positive, f: nat -> nat, t: int)
    requires forall i :: f(i) == h
    requires 0 < t <= n * h
    ensures Offset(n, Fixed(h), t) == Offset(n, ByIndex(f), t) <==> t % h != 0
  {
    OffsetOfConstantHeights(n, h, f, t);
    FloorPlusOneIsCeil(t, h);
  }

  // ---------------------------------------------------------------------
  // Recomputing the window

  /** With a uniform height the recomputation does not read the previous
      window, so recomputing twice gives the window of recomputing once. */
  lemma UniformRecalcIdempotent<T>(s: VirtualList<T>)
    requires s.height.Fixed?
    ensures CalculateRange(CalculateRange(s)) == CalculateRange(s)
  {
  }

  /** With per-index heights the capacity scan starts at the previous window
      start and yields `0 - start` when the rest of the list is lower than the
      container. Three items one unit high in a ten-unit container, scrolled
      to the top without overscan: the first recomputation gives `[1, 1)`,
      the second `[1, 0)`, whose start lies past its end. */
  lemma PerIndexRecalcDrifts()
    ensures
      var f: nat -> nat := _ => 1;
      var s := VirtualList([0, 0, 0], ByIndex(f), 0, Window(0, 10), Some(Container(0, 10)));
      && CalculateRange(s).window == Window(1, 1)
      && CalculateRange(CalculateRange(s)).window == Window(1, 0)
  {
    var f: nat -> nat := _ => 1;
    var s := VirtualList([0, 0, 0], ByIndex(f), 0, Window(0, 10), Some(Container(0, 10)));
    SumConst(f, 1, 0, 1);
    FirstReachingIs(f, 0, 3, 0, 0);
    forall a: nat, j | a <= j < 3
      ensures !Reached(f, a, j, 10)
    {
      SumConst(f, 1, a, j + 1);
    }
    assert FirstReaching(f, 0, 3, 10).None?;
    assert FirstReaching(f, 1, 3, 10).None?;
  }

  /** Items 20 high in a container 100 high, scrolled to the top and
      without overscan: the window holds items 1 to 5. */
  lemma UniformExampleWindow<T>(list: seq<T>)
    requires |list| >= 6
    ensures CalculateRange(VirtualList(list, Fixed(20), 0, Window(0, 10), Some(Container(0, 100)))).window == Window(1, 6)
  {
    CeilUnique(100, 20, 5);
    FloorUnique(0, 20, 0);
  }

  /** With a uniform height, a lower container never gives a larger window:
      the start is the same and the end is no later. */
  lemma UniformWindowMonotoneInHeight<T>(s: VirtualList<T>, top: int, c1: nat, c2: nat)
    requires s.height.Fixed?
    requires c1 <= c2
    ensures
      var w1 := CalculateRange(s.(container := Some(Container(top, c1)))).window;
      var w2 := CalculateRange(s.(container := Some(Container(top, c2)))).window;
      w1.start == w2.start && w1.end <= w2.end
  {
    var h := s.height.h;
    var q1, q2 := CeilDiv(c1, h), CeilDiv(c2, h);
    if q1 > q2 {
      MulMono(q2, q1 - 1, h);
    }
  }

  /** With a uniform height and at least one item of overscan, `scrollTo(k)`
      puts item `k` inside the new window. */
  lemma UniformScrollToCovers<T>(s: VirtualList<T>, k: int)
    requires s.height.Fixed? && s.overscan >= 1
    requires s.container.Some?
    requires 0 <= k < |s.list|
    ensures ScrollTo(s, k).window.start <= k < ScrollTo(s, k).window.end
  {
    var h := s.height.h;
    FloorUnique(k * h, h, k);
    assert (k + 1) * h == k * h + h;
  }

  /** Without overscan the one-item bias of the offset leaves the target
      out: after `scrollTo(k)` the window starts at `k + 1`. */
  lemma UniformScrollToWithoutOverscanSkipsTarget<T>(s: VirtualList<T>, k: int)
    requires s.height.Fixed? && s.overscan == 0
    requires s.container.Some?
    requires 0 <= k < |s.list|
    ensures ScrollTo(s, k).window.start == k + 1
    ensures forall e :: e in Rendered(ScrollTo(s, k)) ==> e.index != k
  {
    var h := s.height.h;
    FloorUnique(k * h, h, k);
    assert (k + 1) * h == k * h + h;
  }

  /** An empty list renders nothing and is zero high; with a uniform height,
      a non-negative scroll position and non-negative overscan its window
      ends at 0. */
  lemma EmptyListRendersNothing<T>(s: VirtualList<T>)
    requires |s.list| == 0
    ensures Rendered(s) == [] && TotalHeight(s) == 0
    ensures s.container.Some? && s.height.Fixed? && s.overscan >= 0 && s.container.value.scrollTop >= 0
            ==> CalculateRange(s).window.end == 0
  {
    assert |Rendered(s)| == 0;
    if s.container.Some? && s.height.Fixed? && s.overscan >= 0 && s.container.value.scrollTop >= 0 {
      var c := s.container.value;
      var offset := Offset(0, s.height, c.scrollTop);
      assert offset >= 1 by { OffsetFromTopIsPositive(s.height.h, c.scrollTop); }
      var capacity := ViewCapacity(0, s.height, c.clientHeight, s.window.start);
      assert offset + capacity + s.overscan > 0;
    }
  }

  /** From a non-negative scroll position the uniform offset is at least 1. */
  lemma OffsetFromTopIsPositive(h: Positive, t: int)
    requires t >= 0
    ensures Offset(0, Fixed(h), t) >= 1
  {
    var p := FloorDiv(t, h);
    if p < 0 { MulMono(p + 1, 0, h); }
  }

  /** After a uniform-height recomputation from a non-negative scroll
      position with non-negative overscan, the rendered entries are exactly
      the items `start..end-1`, each paired with its own index. */
  lemma UniformRenderedIsWindow<T>(s: VirtualList<T>)
    requires s.height.Fixed? && s.overscan >= 0
    requires s.container.Some? && s.container.value.scrollTop >= 0
    ensures
      var r := CalculateRange(s);
      var w := r.window;
      && 0 <= w.end <= |s.list|
      && |Rendered(r)| == (if w.start <= w.end then w.end - w.start else 0)
      && forall i :: 0 <= i < |Rendered(r)| ==>
           Rendered(r)[i] == Entry(s.list[w.start + i], w.start + i)
  {
    var h := s.height.h;
    var p := FloorDiv(s.container.value.scrollTop, h);
    if p < 0 { MulMono(p + 1, 0, h); }
  }
}

=== FILE: wrappers.dfy ===
/** An optional value. `None` stands for JavaScript's `undefined`: an absent
    array slot, a missing map key, an unset option. */
module Wrappers {

  datatype Option<+T> = None | Some(value: T) {

    /** The carried value, or `default` when absent. */
    function GetOr(default: T): T {
      match this
      case Some(v) => v
      case None => default
    }
  }
}
